=== FILE: README.md ===
# Outlier orchestrator gateway — a Dafny model

The gateway sends a dataset of plasma discharges to three anomaly-detection
models (`svm`, `lstm`, `xgboost`) and reduces their binary answers to one
decision by majority vote. It also forwards training data, reports the
models' health, and keeps a small registry of model endpoints that can be
changed at run time. A real-time channel keeps a bounded history of
predictions and a per-model status map. A parser turns sensor text files
into time/value signals.

This project models the decision logic of all of this in Dafny:

- which models are called, and how each reply is classified;
- how the vote is counted, and what decision and confidence it yields;
- how the training summary and the health report count their entries;
- the registry updates;
- the ordered request validators;
- the sensor-file parser and its record;
- the history and status-map updates;
- the status code each HTTP handler answers with.

Modules, one per source file:

| module | file | content |
|---|---|---|
| `Wrappers` | `wrappers.dfy` | `Option`, `Result` |
| `JsValue` | `jsvalue.dfy` | JSON-like JavaScript values, truthiness, property reads, property-key conversion |
| `Config` | `config.dfy` | the model registry (`src/config/index.js`) |
| `Dispatch` | `dispatch.dfy` | `callModel`/`trainModel` response shapes |
| `Voting` | `voting.dfy` | `applyVoting`, as a function `Vote` and as the imperative `ApplyVoting` |
| `Orchestrator` | `orchestrator.dfy` | `orchestrate`, `trainModels`, `healthCheck`, `parseSensorFiles` |
| `Sensor` | `sensor.dfy` | `SensorData`, `fromTextFile`, `toJSON` |
| `Validation` | `validation.dfy` | the two validation middlewares |
| `Realtime` | `realtime.dfy` | `src/utils/socket.js` |
| `Controller` | `controller.dfy` | the HTTP handlers, and the routes that put validators in front of them |

Each remote request is an oracle parameter:

- `post: string -> Remote` is what a request to a URL yields, either the reply data or an error message.
- `probe: Json -> Remote` is what a health probe of an address yields.
- `parseFloat: string -> Num` is JavaScript's `parseFloat`.

Clocks are `Date` parameters. Numbers are reals, plus NaN and the two infinities.

Some behaviours of the code that the contracts state and that a reader might
not expect:

- `confidence || 1.0` makes a zero confidence count as 1 (`Voting.Weight`).
- A prediction of `"1"`, `[1]` or `[["1"]]` votes like `1`, because it is used as a property key and an array's key is its elements joined by commas (`Voting.ClassOf`, `Voting.ClassOfSingleton`).
- Registry entries have no `healthUrl`, so every enabled model is probed at the same absent address. All enabled models are therefore online together or offline together (`Orchestrator.ProbesShareOneTarget`, `Controller.HealthyIffProbeAnswers`).
- `anomalyTimes[name] || null` turns an anomaly time of `0` into `null` (`Orchestrator.AnomalyTimeOf`).
- The `/predict` and `/train` routes run `validateExperimentalData` first, which needs a `data` array. The handlers then need a `discharges` array. A body carrying only `discharges` is refused with 400 (`Controller.DischargesOnlyRefused`).
- `updateModelUrl` accepts type `'health'` and answers 200, but changes nothing.
- `toggle-model` stores whatever value it is sent as `enabled`. Enabledness is its truthiness.
- The health cycle only overwrites the entries of the models it checked, so no key of the status map is ever dropped (`Realtime.RefreshKeepsEntries`).
- Registry entries hold only `url`, `enabled` and `trainingUrl`. The configuration module offers no operation to add or remove a model.
- `toggle-model` destructures its payload in the listener's parameter list, outside the `try`. A `null` or missing payload therefore rejects the listener's promise with a TypeError that nothing handles (`Realtime.ToggleModel`).

## Model

| member | source | states |
|---|---|---|
| JsValue.PropertyKey | src/controllers/orchestrator.controller.js:174 | A request value indexes the registry by its property key: a string by itself, and booleans, `null` and `undefined` by their names. Numbers, arrays and objects are not converted. |
| Config.InitialRegistry | src/config/index.js:4-22 | The registry starts valid with exactly `svm`, `lstm`, `xgboost` in that order, all enabled. With no environment variables set, the URLs are the localhost defaults on ports 8001 to 8003. |
| Config.EnvOr | src/config/index.js:7 | `process.env[name] \|\| fallback`: a set, non-empty variable wins; otherwise the fallback. |
| Config.EnabledAmong | src/services/orchestrator.service.js:112-113 | The enabled keys: a key is listed iff it is among the given keys, has an entry, and its `enabled` flag is truthy. The list is no longer than the keys. |
| Config.EnabledAmongAppend | src/services/orchestrator.service.js:112-113 | Filtering the keys distributes over concatenation, so dispatch follows registry order. |
| Config.AllEnabledKeepsOrder | src/services/orchestrator.service.js:112-113 | When every key is enabled, the enabled list is the key list itself. |
| Config.SetEnabled | src/utils/socket.js:99-100 | Setting a flag changes only that entry's `enabled`, keeps the keys and validity, and makes the model enabled iff the new value is truthy. Every other model's enabledness is unchanged. |
| Config.UpdateModelUrl | src/config/index.js:35-45 | Fails iff the model is unknown. Type `'predict'` (the default) sets only `url`, `'train'` only `trainingUrl`, and any other type (including `'health'`) leaves the registry unchanged. No other entry changes. |
| Config.EnabledAmongFlagsOnly | src/services/orchestrator.service.js:112-113 | Which keys are enabled depends only on the `enabled` flags. |
| Config.UrlUpdateKeepsEnabledKeys | src/config/index.js:35-45 | A URL update never changes which models are dispatched to, nor their order. |
| Dispatch.Call | src/services/orchestrator.service.js:22-54 | A missing or disabled model yields the "not available" response with no status, and nothing is requested. Otherwise the status is success iff the request replied; the result is the reply data and the error is the fault message. |
| Dispatch.CallModel | src/services/orchestrator.service.js:22-54 | `callModel` posts to the entry's `url`. It has no status iff the model is missing or disabled, and succeeds iff that post replied. |
| Dispatch.TrainModel | src/services/orchestrator.service.js:62-94 | `trainModel` posts to the entry's `trainingUrl`, with the same classification. |
| Voting.Counted | src/services/orchestrator.service.js:193-195 | A response is counted only with status success. A successful response is counted iff its result is truthy and its prediction is not `undefined`. |
| Voting.ClassOf | src/services/orchestrator.service.js:220-224 | The slot a prediction lands in: 0 and `"0"` land in slot 0, 1 and `"1"` in slot 1. Any other number or string, `null`, `undefined`, a boolean, an object, or an array of other than one element lands in no slot. |
| Voting.ClassOfSingleton | src/services/orchestrator.service.js:223-224 | A one-element array lands in the slot of its element, so `[1]`, `["1"]` and `[[1]]` vote for class 1. |
| Voting.Tallyable | src/services/orchestrator.service.js:220-224 | An uncounted response never stops the tally. A counted one whose prediction lands in no slot does, because `confidences[prediction]` is undefined. With a falsy confidence, a counted response is tallyable iff its prediction lands in a slot. |
| Voting.OneClass | src/services/orchestrator.service.js:223-224 | A counted, tallyable response votes for class 0 or class 1. |
| Voting.Weight | src/services/orchestrator.service.js:221 | `confidence \|\| 1.0`: a falsy confidence (missing, `null`, 0) weighs 1, and a truthy finite number weighs itself. |
| Voting.Vote | src/services/orchestrator.service.js:189-265 | The reference reduction. It gives no tally iff nothing is counted. Otherwise each class's votes are the counted responses naming it, `totalVotes` counts the counted responses and `totalModels` all of them. The class with strictly more votes is the decision, with the mean of its weights and a "won" message. A draw gives no decision, confidence 0 and the tie message. |
| Voting.Successful | src/services/orchestrator.service.js:193-195 | The counted responses are exactly the input responses with status success, a truthy result and a defined prediction. There are no more of them than inputs. |
| Voting.FilterCounted | src/services/orchestrator.service.js:193-195 | The filter loop keeps exactly the counted responses, in order. |
| Voting.TallyVotes | src/services/orchestrator.service.js:219-225 | The tally loop gives each class one vote per counted response naming it. The class's confidence list holds that response's `confidence \|\| 1.0`. |
| Voting.ApplyVoting | src/services/orchestrator.service.js:189-265 | The imperative reduction (filter, tally, pick the strict majority, average its confidences) computes the reference result `Vote`. |
| Voting.SuccessfulAppend | src/services/orchestrator.service.js:193-195 | Filtering distributes over concatenation. |
| Voting.ConfidencesAppend | src/services/orchestrator.service.js:219-225 | Per-class confidence lists distribute over concatenation. |
| Voting.ConfidencesOfSuccessful | src/services/orchestrator.service.js:193-225 | Tallying only the counted responses gives the same confidence lists as tallying all responses. |
| Voting.CountsAddUp | src/services/orchestrator.service.js:219-225 | Each counted response lands in exactly one class: the two list lengths add up to the number counted. |
| Voting.SumAppend | src/services/orchestrator.service.js:231-234 | The left fold of `reduce` distributes over concatenation. |
| Voting.VoteTotals | src/services/orchestrator.service.js:197-250 | Nothing counted gives the bare `decision: null` result. Otherwise `votes[0] + votes[1] == totalVotes`, which is the number counted, and `totalVotes <= totalModels == \|responses\|`. |
| Voting.NoDecisionIffTie | src/services/orchestrator.service.js:197-256 | The decision is null iff nothing was counted or the classes drew, and then the confidence is 0. |
| Voting.MajorityDecides | src/services/orchestrator.service.js:226-260 | On a strict majority for a class, that class is the decision, its confidence is the arithmetic mean of its voters' confidences, and the message names it with its vote count. |
| Voting.UncountedIgnored | src/services/orchestrator.service.js:193-195 | A response that is not counted (an unavailable model has no status) changes neither decision, confidence nor votes. |
| Voting.SumBounds | src/services/orchestrator.service.js:231-234 | A sum of values in (0,1] lies in (0, n] for n > 0 values. |
| Voting.WeightsInRange | src/services/orchestrator.service.js:221 | When every supplied confidence is in [0,1], every tallied confidence is in (0,1], because a zero counts as 1. |
| Voting.ConfidenceInUnitInterval | src/services/orchestrator.service.js:221-259 | When every supplied confidence lies in [0,1], so does the result's; a decided result's is even positive. |
| Voting.MeanBounds | src/services/orchestrator.service.js:231-234 | The mean of values whose sum is in (0, n] lies in (0,1]. |
| Voting.PermutationSplit | src/services/orchestrator.service.js:219-244 | A permutation of a non-empty list holds its last element at some index, and the remainders are permutations of each other. |
| Voting.ConfidencesPermutation | src/services/orchestrator.service.js:219-225 | Reordering the responses reorders each class's confidence list. |
| Voting.SumPermutation | src/services/orchestrator.service.js:231-234 | The confidence sum does not depend on the order of the summands (over reals). |
| Voting.VotePermutationInvariant | src/services/orchestrator.service.js:219-244 | The voting result does not depend on the order of the responses. |
| Voting.PredictionFacts | src/services/orchestrator.service.js:193-221 | A success response with prediction 0 or 1 and a positive confidence is counted, votes for that class, and weighs its confidence. |
| Voting.SingleResponse | src/services/orchestrator.service.js:193-225 | A single response is counted, and tallied, iff it qualifies. |
| Voting.TwoAgainstOneTally | src/services/orchestrator.service.js:219-225 | Two class-1 votes at 0.9 and a class-0 vote at 0.5 give the confidence lists [0.9, 0.9] and [0.5]. |
| Voting.TwoAgainstOne | src/services/orchestrator.service.js:189-265 | For that scenario the result is class 1, with votes {0: 1, 1: 2}, 3 of 3 counted, confidence 0.9 and the message "Class 1 won by 2 votes". |
| Voting.OneAgainstOne | src/services/orchestrator.service.js:226-256 | One vote each way gives no decision and confidence 0. |
| Orchestrator.CheckDischarges | src/services/orchestrator.service.js:105-108 | A nullish body throws a TypeError, a `discharges` that is not an array throws the format error, and an empty array passes. |
| Orchestrator.Orchestrate | src/services/orchestrator.service.js:101-137 | Succeeds iff `discharges` is an array and some model is enabled, with the distinct errors otherwise. On success it holds exactly one response per enabled model, in registry key order: each is that model's `callModel` response, posted to its `url`, and carries a status. The voting result is the vote over those responses, with `totalModels` the number of enabled models. |
| Orchestrator.SummaryCounts | src/services/orchestrator.service.js:173-177 | `successful + failed <= \|details\|`, with equality iff every response carries a status. |
| Orchestrator.TrainModels | src/services/orchestrator.service.js:144-182 | Same checks as `orchestrate`, then one training call per enabled model in key order. Each detail is that model's `trainModel` response and succeeds iff its training URL replied. `successful` and `failed` count the success and error statuses, and add up to the number of responses, since enabled models always get a status. |
| Orchestrator.CheckAll | src/services/orchestrator.service.js:274-307 | One check per key, in order. A model is reported `disabled` iff it is disabled, and is then unavailable and unprobed. An enabled model is `online` iff its probe replied, carrying the reply data, and otherwise `offline` with the error. It is available iff `online`. |
| Orchestrator.AvailableIsOnline | src/services/orchestrator.service.js:314 | The available count equals the number of `online` entries, and is 0 iff none is `online`. |
| Orchestrator.HealthCheck | src/services/orchestrator.service.js:271-316 | The report covers every registry key in order. A disabled model is `disabled` and unprobed. An enabled one is `online`, carrying the probe's reply data, iff the probe replied, and otherwise `offline`, carrying the error message. `availableModels` is the number of `online` entries, zero iff none is online. |
| Orchestrator.ProbesShareOneTarget | src/services/orchestrator.service.js:277-306 | Any two enabled models get the same health status, because both are probed at the absent `healthUrl`. |
| Orchestrator.AnomalyTimeOf | src/services/orchestrator.service.js:329 | `anomalyTimes[name] \|\| null` keeps a truthy entry and turns anything falsy (absent, 0, "") into null. |
| Orchestrator.ParseSensorFiles | src/services/orchestrator.service.js:324-339 | Fails iff some file exists and the anomaly table is `null`, naming the first file. Otherwise there is one signal per file, in order, with the file's name, its parsed points and its anomaly time or `null`. |
| Sensor.TrimStart | src/models/sensor-data.model.js:33-38 | `trim()` drops a leading run of white space: the result is a suffix starting with a non-space, and everything before it is white space. |
| Sensor.TrimEnd | src/models/sensor-data.model.js:33-38 | It drops a trailing run; the result is a prefix ending with a non-space. |
| Sensor.Trim | src/models/sensor-data.model.js:33-38 | The result is no longer than the text and has no white space at either end. |
| Sensor.TrimSlice | src/models/sensor-data.model.js:33-38 | Dropping the leading run and then the trailing run leaves a slice of the text with only white space outside it. |
| Sensor.TrimIsSlice | src/models/sensor-data.model.js:33-38 | The result of `trim()` is a slice of the text with only white space outside it. With `Trim`'s own contract this fixes the result. |
| Sensor.TrimKeepsTrimmed | src/models/sensor-data.model.js:38 | A string with no white space at its ends is its own trim. |
| Sensor.SplitLines | src/models/sensor-data.model.js:33 | `split('\n')` yields at least one piece, none holding a line feed. |
| Sensor.SplitLinesJoin | src/models/sensor-data.model.js:33 | Joining the pieces with line feeds restores the text. |
| Sensor.TakeWord | src/models/sensor-data.model.js:38 | The first field is the longest prefix without white space, and is non-empty when the text starts with a non-space. |
| Sensor.TrimStartShrinks | src/models/sensor-data.model.js:38 | Skipping a separator that starts the text shortens the text. |
| Sensor.TrimStartKeepsLast | src/models/sensor-data.model.js:38 | Skipping a separator keeps a last character that is not white space. |
| Sensor.TrimStartAt | src/models/sensor-data.model.js:38 | The leading white-space run ends at the first character that is not white space. |
| Sensor.SplitSpaces | src/models/sensor-data.model.js:38 | `split(/\s+/)` yields at least one piece, none holding white space. |
| Sensor.SplitSpacesStep | src/models/sensor-data.model.js:38 | The split is the first field, then the split of whatever follows the next white-space run, if anything follows. |
| Sensor.CollapseWord | src/models/sensor-data.model.js:38 | Collapsing white-space runs leaves a word unchanged. |
| Sensor.CollapseRun | src/models/sensor-data.model.js:38 | A run of white space collapses to a single space. |
| Sensor.SplitSpacesJoin | src/models/sensor-data.model.js:38 | The pieces of `split(/\s+/)`, joined by single spaces, equal the text with every white-space run (tabs, runs of spaces, leading or trailing ones) replaced by one space. Since no piece holds white space, this fixes the pieces. |
| Sensor.SplitTrimmedWords | src/models/sensor-data.model.js:38 | A non-empty trimmed line splits into non-empty fields. |
| Sensor.Fields | src/models/sensor-data.model.js:38 | The fields of a line hold no white space, and are non-empty when the trimmed line is. |
| Sensor.FieldsJoin | src/models/sensor-data.model.js:38 | The fields, joined by single spaces, equal the trimmed line with its white-space runs collapsed. |
| Sensor.TakeWordOfWord | src/models/sensor-data.model.js:38 | A word without white space is its own first field. |
| Sensor.TakeWordAppend | src/models/sensor-data.model.js:38 | Text appended after a separator does not change the first field. |
| Sensor.TrimStartAppend | src/models/sensor-data.model.js:38 | Skipping leading white space commutes with appending text after a non-space. |
| Sensor.WordSplitsToItself | src/models/sensor-data.model.js:38 | A single word is one field. |
| Sensor.SplitSpacesAppendToWord | src/models/sensor-data.model.js:38 | A word, a space and another word split into those two words. |
| Sensor.SplitSpacesAppendStep | src/models/sensor-data.model.js:38 | Splitting a text with several fields peels the first field off both the text and the text with a word appended. |
| Sensor.SplitSpacesAppendWord | src/models/sensor-data.model.js:38 | Appending a space and a word to a line ending in a non-space appends exactly that word to its fields. |
| Sensor.FieldsAppendWord | src/models/sensor-data.model.js:38 | The same holds for the fields of a trimmed line. |
| Sensor.PointOf | src/models/sensor-data.model.js:38-46 | A line contributes a point iff it has at least two fields and neither of the first two parses to NaN. The point is those two parsed numbers. |
| Sensor.Times | src/models/sensor-data.model.js:44 | The times are the first components of the points, in order. |
| Sensor.Values | src/models/sensor-data.model.js:45 | The values are the second components of the points, in order. |
| Sensor.PointsAppend | src/models/sensor-data.model.js:37-47 | The accepted points of two blocks of lines are those of the first block followed by those of the second, so line order is preserved. |
| Sensor.RejectedLineSkipped | src/models/sensor-data.model.js:39-43 | A line that does not yield a point contributes nothing, wherever it stands. |
| Sensor.PointsSingle | src/models/sensor-data.model.js:37-47 | One line yields its point, or nothing. |
| Sensor.SingleFieldSkipped | src/models/sensor-data.model.js:39 | A line holding a single field is skipped. |
| Sensor.PointOfFirstTwo | src/models/sensor-data.model.js:38-46 | Lines whose first two fields agree contribute the same point. |
| Sensor.ExtraFieldIgnored | src/models/sensor-data.model.js:40-41 | Fields after the second do not change a line's point. |
| Sensor.NewSensorData | src/models/sensor-data.model.js:12-23 | The constructor throws iff the lengths differ. Otherwise it stores the fields with `length == times.length`, and an omitted anomaly time becomes `null`. |
| Sensor.UnzipAppend | src/models/sensor-data.model.js:44-45 | Pushing a point pushes its time and its value. |
| Sensor.PointsStep | src/models/sensor-data.model.js:37-47 | One more line extends the points by that line's point, if any. |
| Sensor.CollectPoints | src/models/sensor-data.model.js:34-48 | The loop collects the times and values of exactly the accepted points, in line order. |
| Sensor.FromTextFile | src/models/sensor-data.model.js:32-51 | `fromTextFile` never throws. Its record carries the file name and the accepted points' times and values, of equal length, with the anomaly time defaulting to `null`. |
| Sensor.NumbersToJson | src/models/sensor-data.model.js:59-60 | The number arrays are serialised element by element. |
| Sensor.ToJson | src/models/sensor-data.model.js:56-64 | `toJSON` has exactly the keys `fileName`, `times`, `values`, `length`, `anomalyTime`. |
| Sensor.NumbersFromJson | src/models/sensor-data.model.js:59-60 | Reading a number array back gives one number per element. |
| Sensor.NumbersRoundTrip | src/models/sensor-data.model.js:59-60 | Reading the serialised numbers back gives the numbers. |
| Sensor.JsonRoundTrip | src/models/sensor-data.model.js:56-64 | `toJSON` loses nothing: the record can be read back from it. |
| Validation.AnyInconsistent | src/middleware/validation.middleware.js:37-41 | The filter finds a point iff some point is not an array or has another `length`. |
| Validation.AnyNonNumeric | src/middleware/validation.middleware.js:49 | `some` finds a value iff some value is not a number or is NaN. |
| Validation.AnyPointNonNumeric | src/middleware/validation.middleware.js:48-50 | The nested `some` finds a point iff some point holds such a value. |
| Validation.ValidateExperimentalData | src/middleware/validation.middleware.js:10-68 | Passes iff `data` is a non-empty array of arrays of exactly 7 numbers other than NaN. Every refusal is a 400, and the first failing check decides the reason: missing or non-array data, empty data, a nullish first point (caught TypeError), first length not 7, a non-array or other-length point, or a non-number. Each of the first five reasons holds exactly when its check is the first to fail, so a non-numeric value is left as the only other refusal, and neither config reason can occur. |
| Validation.LengthOnlyObjectRejected | src/middleware/validation.middleware.js:29-45 | A first point that is an object with `length: 7` passes the length check, and the array check then refuses it. |
| Validation.ValidateModelConfig | src/middleware/validation.middleware.js:76-92 | A nullish body throws. Otherwise the request passes iff `modelName` is a non-empty string and `enabled` a boolean. Refusals are 400 with one of the two config reasons. A bad name gives the name error; a good name with a non-boolean `enabled` gives the boolean error. |
| Realtime.AddPrediction | src/utils/socket.js:20-25 | The new record goes to index 0 and the earlier ones shift down by one. Below 100 records the log grows by one; at 100 exactly the oldest is dropped. |
| Realtime.Reverse | src/utils/socket.js:21 | Newest-first order: index i holds the i-th record from the end. |
| Realtime.HistoryIsMostRecent | src/utils/socket.js:17-25 | After n insertions into an empty log it holds the last min(n, 100) records, newest first. |
| Realtime.HistoryBounded | src/utils/socket.js:20-25 | A log of at most 100 records stays at most 100 long, with length min(old + n, 100). |
| Realtime.InitialStatus | src/utils/socket.js:10-14 | The status map starts with exactly `svm`, `lstm`, `xgboost`, each unknown and never checked. |
| Realtime.ApplyHealth | src/utils/socket.js:32-37 | Merging checks adds or overwrites the checked models only. Keys are never removed, and an unchecked key keeps its entry. |
| Realtime.LastCheckWins | src/utils/socket.js:32-37 | A model's entry holds the status of its last check, stamped with the merge time. |
| Realtime.HealthRefresh | src/utils/socket.js:28-39 | A refresh's map has the old keys plus the registry's, and leaves entries outside the registry untouched. |
| Realtime.CheckedModels | src/services/orchestrator.service.js:274 | A health report names exactly the registry keys. |
| Realtime.RefreshReportsEachModel | src/utils/socket.js:30-37 | After a refresh each registry model's entry holds its reported status and the refresh time. |
| Realtime.RefreshKeepsEntries | src/utils/socket.js:32-37 | A refresh never drops an entry, and a model outside the registry keeps its old entry. |
| Realtime.EnabledViews | src/utils/socket.js:102-105 | The `config-update` list has one `{name, enabled}` per registry key, in key order. |
| Realtime.RunPrediction | src/utils/socket.js:73-93 | On success exactly one record is added in front, carrying the decision, confidence and vote counts of the vote and the whole result, and `new-prediction` and `prediction-result` are emitted. On failure the history is unchanged and only an error is emitted. |
| Realtime.RegisterPrediction | src/utils/socket.js:132-135 | A record produced elsewhere is logged in front, under the same cap, and broadcast. |
| Realtime.ToggleModel | src/utils/socket.js:96-116 | For a known model, only its `enabled` changes, to the value sent, and the flag list and a success are emitted. An unknown model leaves the registry unchanged and emits an error. A `null` or missing payload is an unhandled TypeError rejection, and nothing is emitted. |
| Realtime.ToggleDecidesEnabled | src/utils/socket.js:99-100 | After a toggle, the toggled model is dispatched to iff the value sent is truthy; other models are as before. |
| Controller.Views | src/controllers/orchestrator.controller.js:187-194 | The model listing has one entry per registry key, in order, with its `enabled` flag, `url` and `trainingUrl`. |
| Controller.KnownKey | src/controllers/orchestrator.controller.js:174 | `config.models[name]` finds an entry iff the name converts to a registry key. |
| Controller.Predict | src/controllers/orchestrator.controller.js:15-52 | 400 iff the body or `discharges` is falsy. 500 iff `orchestrate` throws, carrying its error. 409 iff the vote reaches no decision. Otherwise 200 with the decision as `class` and the vote's confidence. |
| Controller.PredictAnswerIsMajority | src/controllers/orchestrator.controller.js:32-44 | A 200 names the class with strictly more votes; a 409 means nothing was counted or a draw. |
| Controller.Train | src/controllers/orchestrator.controller.js:59-101 | 200 iff there is a body, `discharges` is a non-empty array and some model is enabled, carrying the training summary. Everything else is 400. |
| Controller.HealthHandler | src/controllers/orchestrator.controller.js:108-128 | 503 iff `availableModels == 0`, otherwise 200, with the report. |
| Controller.HealthyIffProbeAnswers | src/controllers/orchestrator.controller.js:113-115 | Health answers 200 iff some model is enabled and the one shared probe replies. |
| Controller.SomeModelOnline | src/services/orchestrator.service.js:277-314 | An enabled model with a replying probe makes the available count positive. |
| Controller.OnlineMeansEnabled | src/services/orchestrator.service.js:277-314 | A positive available count means some model is enabled and the probe replied. |
| Controller.UpdateModelConfig | src/controllers/orchestrator.controller.js:164-202 | 500 iff the body is nullish. 400 iff `modelName` is falsy or `enabled` is not a boolean. 404 iff the name is no registry key. Otherwise 200, with only that model's `enabled` set, and the listing. The registry is unchanged on every error. |
| Controller.UpdateModelUrlHandler | src/controllers/orchestrator.controller.js:209-254 | Checks in order: 500 for a nullish body, 400 without a name or a non-empty string URL, 404 for an unknown model, 400 for a truthy unknown type. The URL of `type \|\| 'predict'` is then updated and the other URL kept (type `'health'` changes nothing), and the answer is 200. Only that entry can change, and the registry is unchanged on every error. |
| Controller.UrlChangeKeepsDispatch | src/controllers/orchestrator.controller.js:233 | A URL change never changes which models are dispatched to. |
| Controller.Refusal | src/middleware/validation.middleware.js:16-66 | A validator's refusal is answered with its own status and reason; an uncaught TypeError with 500. |
| Controller.PredictRoute | src/routes/index.js:7 | `/predict` runs the handler iff the validator passes, and answers 400 for any body without well-formed `data`. |
| Controller.PredictRouteNeedsBoth | src/routes/index.js:7 | A 200 or 409 from `/predict` implies both a well-formed `data` and a `discharges` array. |
| Controller.DischargesOnlyRefused | src/routes/index.js:7 | A body carrying only `discharges` is refused with 400 for missing `data`. |
| Controller.TrainRoute | src/routes/index.js:10 | `/train` answers 200 iff `data` is well formed, `discharges` is a non-empty array and some model is enabled. |
| Controller.ConfigModelRoute | src/routes/index.js:17 | `/config/model` answers 200 iff `modelName` is a non-empty string naming a registry key and `enabled` is a boolean. The model is then enabled iff `enabled` is true, and the registry is unchanged otherwise. |

## Left out

- HTTP transport (axios), timeouts and the configured timeout values: the outcome of a request is an oracle applied to its address, so two requests to the same address yield the same outcome. `Orchestrator.ProbesShareOneTarget` and `Controller.HealthyIffProbeAnswers` rest on this: every health probe goes to the same absent address. Retries or answers that change over time are not modelled.
- `Promise.all`: the fan-out is a sequential map over the enabled keys. The order of the result list is the key order, as `Promise.all` preserves it.
- The 30-second `setInterval`, the `SIGINT` handler, the on-connect snapshot, disconnects and logging: they only schedule or report the modelled updates.
- Socket.io and Express objects: a handler's emitted events and its response are returned as data.
- Floating point: confidences and sums are reals, so `Voting.VotePermutationInvariant` holds for exact arithmetic. IEEE addition is not associative, and the source may differ in the last bits.
- `parseFloat`: an oracle parameter. Its prefix-parsing behaviour is not modelled.
- Timestamps: each `new Date()` of one health merge is one `Date` argument, so all entries of a merge share a time.
- JsValue.PropertyKey: converts only strings, booleans, `null` and `undefined` to a property key. Numbers, arrays and objects used as registry keys are not converted and count as unknown keys, although the source would find `["svm"]`. Property reads model only own properties of objects and the `length` of arrays and strings; prototype properties such as `constructor` read as `undefined`.
- Orchestrator.Orchestrate: requires every enabled model's reply to be tallyable. Its prediction must land in slot 0 or 1: 0, 1, `"0"`, `"1"`, or a one-element array of such. Its confidence must be falsy or a finite number. Any other prediction leaves `confidences[prediction]` undefined, so `applyVoting` throws a TypeError; that path is not modelled. A truthy confidence that is not a finite number (`true`, a string, an object, an infinity) is left out as well. The sum would coerce it with `+`: `0 + true` is 1, and a string turns the sum into string concatenation.
- Controller.Predict: inherits that requirement; the 500 that such a TypeError would produce is not modelled.
- Controller.PredictRoute: inherits the same requirement.
- Realtime.RunPrediction: inherits the same requirement; the error event such a TypeError would produce is not modelled.
- Key order of the status map (`Realtime.StatusMap`): a Dafny map has no key order. The order in which the emitted `modelStatus` object lists its models (insertion order: the three initial keys, then keys first added by a health merge) is not modelled.
- Sensor.FromTextFile: `content` and `fileName` are strings. A non-string `content` would throw at `trim()`.
- Orchestrator.ParseSensorFiles: `files` is a sequence of name/content pairs; a non-array or a file without string fields is not modelled.
- Realtime.ToggleModel: what Node.js does after the unhandled rejection (recent versions end the process by default) is not modelled; the model only reports the fault, and no registry change happens.
- Realtime.HealthRefresh: a failing health check (the `catch` branches) cannot occur, since `healthCheck` resolves for every probe outcome here.
- `getConfig`: a read-only listing of the registry and the timeout; its model list is `Controller.Views`.
- `updateModelName`, `addModel` and `deleteModel`: they call `config.updateModelDisplayName`, `config.addModel` and `config.removeModel`, which the configuration module does not define, and no route reaches them.
- Message texts of responses and events are not modelled, beyond the "not available" message of `callModel` and the reason each answer carries.

=== FILE: config.dfy ===
/** The model registry (src/config/index.js): an in-memory JavaScript object
    from model key to endpoint configuration, shared by the orchestrator, the
    controllers and the realtime channel. */
module Config {
  import opened Wrappers
  import opened JsValue

  /** One registry entry. `enabled` holds whatever value was last stored in it
      (the realtime `toggle-model` handler stores the client's value unchecked),
      and every reader tests its truthiness. Entries carry no `healthUrl`. */
  datatype ModelConfig = ModelConfig(url: string, enabled: Json, trainingUrl: string)

  /** The registry object: its keys in insertion order (the order
      `Object.keys` reports) and the entry stored under each key. */
  datatype Registry = Registry(keys: seq<string>, models: map<string, ModelConfig>) {
    /** Keys are distinct and are exactly the keys of the entry map. */
    predicate Valid() {
      && (forall i, j :: 0 <= i < j < |keys| ==> keys[i] != keys[j])
      && (forall k :: k in models ==> k in keys)
      && (forall k :: k in keys ==> k in models)
    }
  }

  datatype ConfigError = ModelNotFound(name: string)

  predicate IsEnabled(c: ModelConfig) {
    Truthy(c.enabled)
  }

  /** `process.env[name] || fallback`: an unset or empty variable yields the fallback. */
  function EnvOr(env: map<string, string>, name: string, fallback: string): (v: string)
    ensures name in env && env[name] != "" ==> v == env[name]
    ensures name !in env || env[name] == "" ==> v == fallback
  {
    if name in env && env[name] != "" then env[name] else fallback
  }

  /** The registry at start-up: svm, lstm and xgboost, all enabled, each URL
      overridable by an environment variable. */
  function InitialRegistry(env: map<string, string>): (r: Registry)
    ensures r.Valid()
    ensures r.keys == ["svm", "lstm", "xgboost"]
    ensures forall k :: k in r.models ==> r.models[k].enabled == Bool(true)
    ensures env == map[] ==>
      && r.models["svm"].url == "http://localhost:8001/predict"
      && r.models["svm"].trainingUrl == "http://localhost:8001/train"
      && r.models["lstm"].url == "http://localhost:8002/predict"
      && r.models["lstm"].trainingUrl == "http://localhost:8002/train"
      && r.models["xgboost"].url == "http://localhost:8003/predict"
      && r.models["xgboost"].trainingUrl == "http://localhost:8003/train"
  {
    assert "svm"[0] == 's' && "lstm"[0] == 'l' && "xgboost"[0] == 'x';
    Registry(
      ["svm", "lstm", "xgboost"],
      map[
        "svm" := ModelConfig(
          EnvOr(env, "SVM_MODEL_URL", "http://localhost:8001/predict"), Bool(true),
          EnvOr(env, "SVM_TRAINING_URL", "http://localhost:8001/train")),
        "lstm" := ModelConfig(
          EnvOr(env, "LSTM_MODEL_URL", "http://localhost:8002/predict"), Bool(true),
          EnvOr(env, "LSTM_TRAINING_URL", "http://localhost:8002/train")),
        "xgboost" := ModelConfig(
          EnvOr(env, "XGBOOST_MODEL_URL", "http://localhost:8003/predict"), Bool(true),
          EnvOr(env, "XGBOOST_TRAINING_URL", "http://localhost:8003/train"))])
  }

  /** The keys among `ks` whose entry is enabled, in the order of `ks`
      (`Object.keys(models).filter(m => models[m].enabled)`). */
  function EnabledAmong(models: map<string, ModelConfig>, ks: seq<string>): (r: seq<string>)
    ensures forall k :: k in r <==> k in ks && k in models && IsEnabled(models[k])
    ensures |r| <= |ks|
  {
    if ks == [] then [] else Pick(models, ks[0]) + EnabledAmong(models, ks[1..])
  }

  /** The key alone when its entry is enabled, nothing otherwise. */
  function Pick(models: map<string, ModelConfig>, k: string): seq<string> {
    if k in models && IsEnabled(models[k]) then [k] else []
  }

  function EnabledKeys(reg: Registry): seq<string> {
    EnabledAmong(reg.models, reg.keys)
  }

  /** Filtering distributes over concatenation: an enabled key listed before
      another in the registry is dispatched to before it. */
  lemma {:induction false} EnabledAmongAppend(models: map<string, ModelConfig>, a: seq<string>, b: seq<string>)
    ensures EnabledAmong(models, a + b) == EnabledAmong(models, a) + EnabledAmong(models, b)
  {
    if a == [] {
      assert a + b == b;
    } else {
      assert (a + b)[1..] == a[1..] + b;
      EnabledAmongAppend(models, a[1..], b);
    }
  }

  /** Every key enabled: dispatch goes to all models in registry order. */
  lemma {:induction false} AllEnabledKeepsOrder(models: map<string, ModelConfig>, ks: seq<string>)
    requires forall k :: k in ks ==> k in models && IsEnabled(models[k])
    ensures EnabledAmong(models, ks) == ks
  {
    if ks != [] {
      assert Pick(models, ks[0]) == [ks[0]];
      AllEnabledKeepsOrder(models, ks[1..]);
      assert ks == [ks[0]] + ks[1..];
    }
  }

  /** Stores `v` in the `enabled` field of one entry (`models[name].enabled = v`). */
  function SetEnabled(reg: Registry, name: string, v: Json): (r: Registry)
    requires name in reg.models
    ensures r.keys == reg.keys && r.models.Keys == reg.models.Keys
    ensures reg.Valid() ==> r.Valid()
    ensures r.models[name].enabled == v
    ensures r.models[name].url == reg.models[name].url
    ensures r.models[name].trainingUrl == reg.models[name].trainingUrl
    ensures forall k :: k in reg.models && k != name ==> r.models[k] == reg.models[k]
    ensures reg.Valid() ==> forall k :: k in EnabledKeys(r) <==>
      if k == name then Truthy(v) else k in EnabledKeys(reg)
  {
    reg.(models := reg.models[name := reg.models[name].(enabled := v)])
  }

  /** `updateModelUrl(modelName, url, type = 'predict')`: an unknown key throws;
      type 'predict' rewrites `url`, type 'train' rewrites `trainingUrl`, and
      any other type (including 'health') leaves the registry as it was. */
  function UpdateModelUrl(reg: Registry, name: string, url: string, kind: Json): (r: Result<Registry, ConfigError>)
    ensures r.Failure? <==> name !in reg.models
    ensures r.Failure? ==> r.error == ModelNotFound(name)
    ensures r.Success? ==>
      && r.value.keys == reg.keys
      && r.value.models.Keys == reg.models.Keys
      && (reg.Valid() ==> r.value.Valid())
      && (forall k :: k in reg.models && k != name ==> r.value.models[k] == reg.models[k])
      && r.value.models[name].enabled == reg.models[name].enabled
    ensures r.Success? && (kind == Undefined || kind == Str("predict")) ==>
      r.value.models[name].url == url && r.value.models[name].trainingUrl == reg.models[name].trainingUrl
    ensures r.Success? && kind == Str("train") ==>
      r.value.models[name].trainingUrl == url && r.value.models[name].url == reg.models[name].url
    ensures r.Success? && kind !in {Undefined, Str("predict"), Str("train")} ==> r.value == reg
  {
    if name !in reg.models then Failure(ModelNotFound(name))
    else
      var kind' := if kind.Undefined? then Str("predict") else kind;
      var c := reg.models[name];
      if kind' == Str("predict") then Success(reg.(models := reg.models[name := c.(url := url)]))
      else if kind' == Str("train") then Success(reg.(models := reg.models[name := c.(trainingUrl := url)]))
      else Success(reg)
  }

  /** Two entry maps that agree on the enabled flag of every listed key select
      the same keys. */
  lemma {:induction false} EnabledAmongFlagsOnly(m1: map<string, ModelConfig>, m2: map<string, ModelConfig>, ks: seq<string>)
    requires forall k :: k in ks ==> (k in m1 <==> k in m2)
    requires forall k :: k in ks && k in m1 ==> m1[k].enabled == m2[k].enabled
    ensures EnabledAmong(m1, ks) == EnabledAmong(m2, ks)
  {
    if ks != [] {
      EnabledAmongFlagsOnly(m1, m2, ks[1..]);
    }
  }

  /** Changing a URL never changes which models are dispatched to, nor their order. */
  lemma UrlUpdateKeepsEnabledKeys(reg: Registry, name: string, url: string, kind: Json)
    requires UpdateModelUrl(reg, name, url, kind).Success?
    ensures EnabledKeys(UpdateModelUrl(reg, name, url, kind).value) == EnabledKeys(reg)
  {
    var r := UpdateModelUrl(reg, name, url, kind).value;
    EnabledAmongFlagsOnly(r.models, reg.models, reg.keys);
  }
}

=== FILE: controller.dfy ===
/** The HTTP handlers (src/controllers/orchestrator.controller.js) and the
    routes that put the validators in front of them (src/routes/index.js).
    A handler is a function from the request body and the registry to the
    response and, for the configuration handlers, the updated registry. */
module Controller {
  import opened Wrappers
  import opened JsValue
  import opened Config
  import opened Dispatch
  import opened Voting
  import opened Orchestrator
  import opened Validation

  const Ok: nat := 200
  const NotFound: nat := 404
  const Conflict: nat := 409
  const InternalError: nat := 500
  const ServiceUnavailable: nat := 503

  /** `{ name, enabled, url, trainingUrl }` as the configuration handlers list
      the models (their `healthUrl` and `displayName` read as `undefined`). */
  datatype ModelView = ModelView(name: string, enabled: Json, url: string, trainingUrl: string)

  /** What an error answer is about. */
  datatype Problem =
    | PredictInputMissing
    | PredictionFailed(cause: OrchestrateError)
    | TrainingInputMissing
    | TrainingFormatInvalid
    | TrainingDispatchFailed(cause: OrchestrateError)
    | ConfigInputInvalid
    | UrlInputInvalid
    | UnknownModel(requested: Json)
    | InvalidUrlType
    | BodyUnreadable
    | InvalidRequest(reason: Rejection)

  datatype Payload =
    | Predicted(decision: Label, confidence: real, details: Orchestration)
    | Undecided(details: Orchestration)
    | TrainingStarted(summary: TrainSummary)
    | HealthStatus(report: HealthReport)
    | ModelList(models: seq<ModelView>)
    | Refused(problem: Problem)

  datatype Response = Response(status: nat, payload: Payload)

  /** The listing the configuration handlers answer with, in key order. */
  function Views(reg: Registry): (vs: seq<ModelView>)
    requires reg.Valid()
    ensures |vs| == |reg.keys|
    ensures forall i :: 0 <= i < |vs| ==>
      && vs[i].name == reg.keys[i]
      && vs[i].enabled == reg.models[reg.keys[i]].enabled
      && vs[i].url == reg.models[reg.keys[i]].url
      && vs[i].trainingUrl == reg.models[reg.keys[i]].trainingUrl
  {
    seq(|reg.keys|, i requires 0 <= i < |reg.keys| =>
      var c := reg.models[reg.keys[i]];
      ModelView(reg.keys[i], c.enabled, c.url, c.trainingUrl))
  }

  /** `config.models[v]` is an entry (entries are objects, hence truthy)
      exactly when `v` converts to a registry key. */
  function KnownKey(reg: Registry, v: Json): (k: Option<string>)
    ensures k.Some? ==> k.value in reg.models && PropertyKey(v) == k
    ensures k.None? <==> PropertyKey(v).None? || PropertyKey(v).value !in reg.models
  {
    match PropertyKey(v)
    case Some(key) => if key in reg.models then Some(key) else None
    case None => None
  }

  // ---------------------------------------------------------------------------
  // predict

  /** `predict`: 400 without a body or a truthy `discharges`; 500 when
      `orchestrate` throws; 409 when the vote reaches no decision; 200 with
      the winning class and its confidence otherwise. */
  function Predict(body: Json, reg: Registry, post: string -> Remote): (r: Response)
    requires HasDischargeArray(body) ==> RepliesTallyable(reg, post)
    ensures r.status in {Ok, BadRequest, Conflict, InternalError}
    ensures r.status == BadRequest <==> !Truthy(body) || !Truthy(Get(body, "discharges"))
    ensures r.status == InternalError <==>
      Truthy(body) && Truthy(Get(body, "discharges")) && Orchestrate(body, reg, post).Failure?
    ensures r.status == InternalError ==> r.payload == Refused(PredictionFailed(Orchestrate(body, reg, post).error))
    ensures r.status in {Ok, Conflict} ==>
      && Orchestrate(body, reg, post).Success?
      && (r.status == Conflict <==> Orchestrate(body, reg, post).value.voting.Decision().None?)
    ensures r.status == Ok ==>
      && r.payload.Predicted?
      && Some(r.payload.decision) == Orchestrate(body, reg, post).value.voting.Decision()
      && r.payload.confidence == Orchestrate(body, reg, post).value.voting.Confidence()
  {
    if !Truthy(body) || !Truthy(Get(body, "discharges")) then Response(BadRequest, Refused(PredictInputMissing))
    else
      match Orchestrate(body, reg, post)
      case Failure(e) => Response(InternalError, Refused(PredictionFailed(e)))
      case Success(o) =>
        match o.voting.Decision()
        case None => Response(Conflict, Undecided(o))
        case Some(c) => Response(Ok, Predicted(c, o.voting.Confidence(), o))
  }

  /** A 200 answer names the class with strictly more votes among the enabled
      models' counted replies; a 409 means nothing was counted or the classes drew. */
  lemma PredictAnswerIsMajority(body: Json, reg: Registry, post: string -> Remote)
    requires HasDischargeArray(body) ==> RepliesTallyable(reg, post)
    ensures var r := Predict(body, reg, post);
      r.status == Ok ==>
        var models := Orchestrate(body, reg, post).value.models;
        |Confidences(models, r.payload.decision)| > |Confidences(models, 1 - r.payload.decision)|
    ensures var r := Predict(body, reg, post);
      r.status == Conflict ==>
        var models := Orchestrate(body, reg, post).value.models;
        |Successful(models)| == 0 || |Confidences(models, 0)| == |Confidences(models, 1)|
  {
    var r := Predict(body, reg, post);
    if r.status in {Ok, Conflict} {
      var models := Orchestrate(body, reg, post).value.models;
      NoDecisionIffTie(models);
      CountsAddUp(models);
    }
  }

  // ---------------------------------------------------------------------------
  // train

  /** `train`: 400 without a body, 400 unless `discharges` is a non-empty
      array, 400 when `trainModels` throws (no model enabled), 200 with the
      training summary otherwise. */
  function Train(body: Json, reg: Registry, post: string -> Remote): (r: Response)
    ensures r.status in {Ok, BadRequest}
    ensures r.status == Ok <==>
      && Truthy(body)
      && Get(body, "discharges").Arr? && |Get(body, "discharges").items| > 0
      && EnabledKeys(reg) != []
    ensures !Truthy(body) ==> r.payload == Refused(TrainingInputMissing)
    ensures r.status == Ok ==> r.payload == TrainingStarted(TrainModels(body, reg, post).value)
  {
    if !Truthy(body) then Response(BadRequest, Refused(TrainingInputMissing))
    else
      var discharges := Get(body, "discharges");
      if !Truthy(discharges) || !discharges.Arr? || |discharges.items| == 0 then
        Response(BadRequest, Refused(TrainingFormatInvalid))
      else
        match TrainModels(body, reg, post)
        case Failure(e) => Response(BadRequest, Refused(TrainingDispatchFailed(e)))
        case Success(s) => Response(Ok, TrainingStarted(s))
  }

  // ---------------------------------------------------------------------------
  // health

  /** `health`: the report, with 503 when no model is available. */
  function HealthHandler(reg: Registry, probe: Json -> Remote, now: Date): (r: Response)
    requires reg.Valid()
    ensures r.payload == HealthStatus(HealthCheck(reg, probe, now))
    ensures r.status == ServiceUnavailable <==> HealthCheck(reg, probe, now).availableModels == 0
    ensures r.status in {Ok, ServiceUnavailable}
  {
    var h := HealthCheck(reg, probe, now);
    Response(if h.availableModels > 0 then Ok else ServiceUnavailable, HealthStatus(h))
  }

  /** Since every enabled model is probed at the same absent address, the
      service is reported healthy exactly when some model is enabled and that
      one probe answers. */
  lemma HealthyIffProbeAnswers(reg: Registry, probe: Json -> Remote, now: Date)
    requires reg.Valid()
    ensures HealthHandler(reg, probe, now).status == Ok <==> EnabledKeys(reg) != [] && probe(Undefined).Reply?
  {
    if EnabledKeys(reg) != [] && probe(Undefined).Reply? {
      SomeModelOnline(reg, probe, now);
    }
    if HealthCheck(reg, probe, now).availableModels != 0 {
      OnlineMeansEnabled(reg, probe, now);
    }
  }

  lemma SomeModelOnline(reg: Registry, probe: Json -> Remote, now: Date)
    requires reg.Valid() && EnabledKeys(reg) != [] && probe(Undefined).Reply?
    ensures HealthCheck(reg, probe, now).availableModels != 0
  {
    var h := HealthCheck(reg, probe, now);
    var k := EnabledKeys(reg)[0];
    assert k in EnabledKeys(reg);
    var i :| 0 <= i < |reg.keys| && reg.keys[i] == k;
    assert h.models[i].status == Online;
  }

  lemma OnlineMeansEnabled(reg: Registry, probe: Json -> Remote, now: Date)
    requires reg.Valid() && HealthCheck(reg, probe, now).availableModels != 0
    ensures EnabledKeys(reg) != [] && probe(Undefined).Reply?
  {
    var h := HealthCheck(reg, probe, now);
    var i :| 0 <= i < |h.models| && h.models[i].status == Online;
    var m := reg.models[reg.keys[i]];
    assert IsEnabled(m);
    assert probe(HealthUrl(m)).Reply?;
    assert reg.keys[i] in EnabledKeys(reg);
  }

  // ---------------------------------------------------------------------------
  // updateModelConfig

  /** `updateModelConfig`: destructuring a nullish body throws inside the
      handler (500); a falsy `modelName` or a non-boolean `enabled` is a 400;
      an unknown model a 404; otherwise the flag is stored and the models listed. */
  function UpdateModelConfig(body: Json, reg: Registry): (r: (Response, Registry))
    requires reg.Valid()
    ensures r.1.Valid() && r.1.keys == reg.keys
    ensures r.0.status in {Ok, BadRequest, NotFound, InternalError}
    ensures r.0.status == InternalError <==> Nullish(body)
    ensures r.0.status == BadRequest <==>
      !Nullish(body) && (!Truthy(Get(body, "modelName")) || !Get(body, "enabled").Bool?)
    ensures r.0.status == NotFound <==>
      && !Nullish(body) && Truthy(Get(body, "modelName")) && Get(body, "enabled").Bool?
      && KnownKey(reg, Get(body, "modelName")).None?
    ensures r.0.status != Ok ==> r.1 == reg
    ensures r.0.status == Ok ==>
      var k := KnownKey(reg, Get(body, "modelName")).value;
      && r.1.models == reg.models[k := reg.models[k].(enabled := Get(body, "enabled"))]
      && r.0.payload == ModelList(Views(r.1))
  {
    if Nullish(body) then (Response(InternalError, Refused(BodyUnreadable)), reg)
    else
      var name := Get(body, "modelName");
      var enabled := Get(body, "enabled");
      if !Truthy(name) || !enabled.Bool? then (Response(BadRequest, Refused(ConfigInputInvalid)), reg)
      else
        match KnownKey(reg, name)
        case None => (Response(NotFound, Refused(UnknownModel(name))), reg)
        case Some(k) =>
          var reg' := SetEnabled(reg, k, enabled);
          (Response(Ok, ModelList(Views(reg'))), reg')
  }

  // ---------------------------------------------------------------------------
  // updateModelUrl

  /** The `type` values the handler accepts. */
  predicate KnownUrlType(t: Json) {
    t in {Str("predict"), Str("train"), Str("health")}
  }

  /** `updateModelUrl`: 500 for a nullish body; 400 without a model name or a
      non-empty string `url`; 404 for an unknown model; 400 for a truthy `type`
      other than 'predict', 'train' and 'health'; otherwise the registry's
      `updateModelUrl` with `type || 'predict'`, and 200. */
  function UpdateModelUrlHandler(body: Json, reg: Registry): (r: (Response, Registry))
    requires reg.Valid()
    ensures r.1.Valid() && r.1.keys == reg.keys
    ensures r.0.status in {Ok, BadRequest, NotFound, InternalError}
    ensures r.0.status == InternalError <==> Nullish(body)
    ensures r.0.status == NotFound <==>
      && !Nullish(body) && Truthy(Get(body, "modelName")) && NonEmptyString(Get(body, "url"))
      && KnownKey(reg, Get(body, "modelName")).None?
    ensures r.0.status == Ok <==>
      && !Nullish(body) && Truthy(Get(body, "modelName")) && NonEmptyString(Get(body, "url"))
      && KnownKey(reg, Get(body, "modelName")).Some?
      && (Truthy(Get(body, "type")) ==> KnownUrlType(Get(body, "type")))
    ensures r.0.status != Ok ==> r.1 == reg
    ensures r.0.status == Ok ==>
      var k := KnownKey(reg, Get(body, "modelName")).value;
      var t := Get(body, "type");
      && (forall m :: m in reg.models && m != k ==> r.1.models[m] == reg.models[m])
      && r.1.models[k].enabled == reg.models[k].enabled
      && (!Truthy(t) || t == Str("predict") ==>
            r.1.models[k].url == Get(body, "url").s && r.1.models[k].trainingUrl == reg.models[k].trainingUrl)
      && (t == Str("train") ==>
            r.1.models[k].trainingUrl == Get(body, "url").s && r.1.models[k].url == reg.models[k].url)
      && (t == Str("health") ==> r.1 == reg)
      && r.0.payload == ModelList(Views(r.1))
  {
    if Nullish(body) then (Response(InternalError, Refused(BodyUnreadable)), reg)
    else
      var name := Get(body, "modelName");
      var url := Get(body, "url");
      var t := Get(body, "type");
      if !Truthy(name) || !NonEmptyString(url) then (Response(BadRequest, Refused(UrlInputInvalid)), reg)
      else
        match KnownKey(reg, name)
        case None => (Response(NotFound, Refused(UnknownModel(name))), reg)
        case Some(k) =>
          if Truthy(t) && !KnownUrlType(t) then (Response(BadRequest, Refused(InvalidUrlType)), reg)
          else
            match Config.UpdateModelUrl(reg, k, url.s, if Truthy(t) then t else Str("predict"))
            case Failure(_) => (Response(InternalError, Refused(UnknownModel(name))), reg)
            case Success(reg') => (Response(Ok, ModelList(Views(reg'))), reg')
  }

  /** A URL change never changes which models requests go to. */
  lemma UrlChangeKeepsDispatch(body: Json, reg: Registry)
    requires reg.Valid()
    ensures EnabledKeys(UpdateModelUrlHandler(body, reg).1) == EnabledKeys(reg)
  {
    var r := UpdateModelUrlHandler(body, reg);
    EnabledAmongFlagsOnly(r.1.models, reg.models, reg.keys);
  }

  // ---------------------------------------------------------------------------
  // Routes.

  /** The answer of a validator that did not pass the request on. */
  function Refusal(o: Outcome): (r: Response)
    requires !o.Next?
    ensures o.Rejected? ==> r == Response(o.status, Refused(InvalidRequest(o.reason)))
    ensures o.Thrown? ==> r.status == InternalError
  {
    match o
    case Rejected(status, reason) => Response(status, Refused(InvalidRequest(reason)))
    case Thrown => Response(InternalError, Refused(BodyUnreadable))
  }

  /** `POST /predict`: `validateExperimentalData`, then `predict`. */
  function PredictRoute(body: Json, reg: Registry, post: string -> Remote): (r: Response)
    requires HasDischargeArray(body) ==> RepliesTallyable(reg, post)
    ensures ValidateExperimentalData(body).Next? ==> r == Predict(body, reg, post)
    ensures !WellFormedDataset(body) ==> r.status == BadRequest
  {
    var v := ValidateExperimentalData(body);
    if v.Next? then Predict(body, reg, post) else Refusal(v)
  }

  /** The route reaches a prediction only for a body carrying both a
      well-formed `data` array (for the validator) and a `discharges` array
      (for the handler): neither alone gets past it. */
  lemma PredictRouteNeedsBoth(body: Json, reg: Registry, post: string -> Remote)
    requires HasDischargeArray(body) ==> RepliesTallyable(reg, post)
    ensures PredictRoute(body, reg, post).status in {Ok, Conflict} ==>
      WellFormedDataset(body) && Get(body, "discharges").Arr?
  {
  }

  /** A body with only `discharges`, the shape the models take, is refused by
      the route's validator for lack of `data`. */
  lemma DischargesOnlyRefused(discharges: seq<Json>, reg: Registry, post: string -> Remote)
    requires RepliesTallyable(reg, post)
    ensures PredictRoute(Obj(map["discharges" := Arr(discharges)]), reg, post)
      == Response(BadRequest, Refused(InvalidRequest(MissingData)))
  {
    assert Get(Obj(map["discharges" := Arr(discharges)]), "data") == Undefined;
  }

  /** `POST /train`: `validateExperimentalData`, then `train`. */
  function TrainRoute(body: Json, reg: Registry, post: string -> Remote): (r: Response)
    ensures r.status == Ok <==>
      && WellFormedDataset(body)
      && Get(body, "discharges").Arr? && |Get(body, "discharges").items| > 0
      && EnabledKeys(reg) != []
  {
    var v := ValidateExperimentalData(body);
    if v.Next? then Train(body, reg, post) else Refusal(v)
  }

  /** `POST /config/model`: `validateModelConfig`, then `updateModelConfig`. */
  function ConfigModelRoute(body: Json, reg: Registry): (r: (Response, Registry))
    requires reg.Valid()
    ensures r.1.Valid() && r.1.keys == reg.keys
    ensures r.0.status == Ok <==>
      && !Nullish(body) && NonEmptyString(Get(body, "modelName")) && Get(body, "enabled").Bool?
      && Get(body, "modelName").s in reg.models
    ensures r.0.status != Ok ==> r.1 == reg
    ensures r.0.status == Ok ==>
      (Get(body, "modelName").s in EnabledKeys(r.1) <==> Get(body, "enabled").b)
  {
    var v := ValidateModelConfig(body);
    if v.Next? then UpdateModelConfig(body, reg) else (Refusal(v), reg)
  }
}

=== FILE: dispatch.dfy ===
/** One remote call to one model (`callModel` and `trainModel` in
    src/services/orchestrator.service.js). The HTTP request itself is an oracle:
    `post(url)` is what posting the dataset to `url` yields. */
module Dispatch {
  import opened Wrappers
  import opened JsValue
  import opened Config

  /** What one HTTP request yields: the reply body, or the message of the
      error it raised (a refused connection, a timeout, a non-2xx answer). */
  datatype Remote = Reply(data: Json) | Fault(message: string)

  datatype Status = StatusSuccess | StatusError

  /** The object a call resolves to. An unavailable model yields
      `{ error, modelName }` with no `status` at all. */
  datatype ModelResponse =
    | Unavailable(modelName: string, error: string)
    | Answered(modelName: string, result: Json)
    | Failed(modelName: string, error: string)
  {
    /** The `status` field: 'success', 'error', or absent. */
    function Status(): Option<Status> {
      match this
      case Unavailable(_, _) => None
      case Answered(_, _) => Some(StatusSuccess)
      case Failed(_, _) => Some(StatusError)
    }
  }

  function NotAvailableMessage(name: string): string {
    "Model " + name + " is not available"
  }

  /** Shared shape of `callModel` and `trainModel`: a missing or disabled entry
      is reported without any request; otherwise the request's reply or error
      is wrapped with the model name. */
  function Call(reg: Registry, name: string, target: ModelConfig -> string, post: string -> Remote): (r: ModelResponse)
    ensures r.modelName == name
    ensures r.Unavailable? <==> name !in reg.models || !IsEnabled(reg.models[name])
    ensures r.Unavailable? ==> r.Status().None? && r.error == NotAvailableMessage(name)
    ensures !r.Unavailable? ==> (r.Status() == Some(StatusSuccess) <==> post(target(reg.models[name])).Reply?)
    ensures r.Answered? ==> r.result == post(target(reg.models[name])).data
    ensures r.Failed? ==> r.error == post(target(reg.models[name])).message
  {
    if name !in reg.models || !IsEnabled(reg.models[name]) then Unavailable(name, NotAvailableMessage(name))
    else
      match post(target(reg.models[name]))
      case Reply(data) => Answered(name, data)
      case Fault(message) => Failed(name, message)
  }

  /** `callModel`: posts to the entry's prediction `url`. */
  function CallModel(reg: Registry, name: string, post: string -> Remote): (r: ModelResponse)
    ensures r.modelName == name
    ensures r.Status().None? <==> name !in reg.models || !IsEnabled(reg.models[name])
    ensures r.Status() == Some(StatusSuccess) <==>
      name in reg.models && IsEnabled(reg.models[name]) && post(reg.models[name].url).Reply?
    ensures r.Answered? ==> r.result == post(reg.models[name].url).data
  {
    Call(reg, name, (c: ModelConfig) => c.url, post)
  }

  /** `trainModel`: posts to the entry's `trainingUrl`. */
  function TrainModel(reg: Registry, name: string, post: string -> Remote): (r: ModelResponse)
    ensures r.modelName == name
    ensures r.Status().None? <==> name !in reg.models || !IsEnabled(reg.models[name])
    ensures r.Status() == Some(StatusSuccess) <==>
      name in reg.models && IsEnabled(reg.models[name]) && post(reg.models[name].trainingUrl).Reply?
    ensures r.Answered? ==> r.result == post(reg.models[name].trainingUrl).data
  {
    Call(reg, name, (c: ModelConfig) => c.trainingUrl, post)
  }
}

=== FILE: jsvalue.dfy ===
/** JSON-like JavaScript values as they reach the gateway in request bodies,
    socket payloads and remote replies, with the few JavaScript operations the
    gateway applies to them: truthiness, property reads and the `typeof`/`isNaN`
    number test. */
module JsValue {
  import opened Wrappers

  /** A JavaScript number: finite (modelled as a real, without rounding), NaN,
      or one of the two infinities. */
  datatype Num = Finite(value: real) | NaN | Infinity(negative: bool)

  datatype Json =
    | Undefined
    | Null
    | Bool(b: bool)
    | Number(n: Num)
    | Str(s: string)
    | Arr(items: seq<Json>)
    | Obj(fields: map<string, Json>)

  /** A `Date` value; the gateway only stores and forwards it. */
  datatype Date = Date(millis: int)

  /** `v === null || v === undefined`: reading a property of such a value throws. */
  predicate Nullish(v: Json) {
    v.Undefined? || v.Null?
  }

  /** JavaScript truthiness, `!!v`. Arrays and objects are truthy even when empty. */
  predicate Truthy(v: Json) {
    match v
    case Undefined => false
    case Null => false
    case Bool(b) => b
    case Number(n) => n.Infinity? || (n.Finite? && n.value != 0.0)
    case Str(s) => s != ""
    case Arr(_) => true
    case Obj(_) => true
  }

  /** `typeof v === 'number' && !isNaN(v)` */
  predicate IsNumeric(v: Json) {
    v.Number? && !v.n.NaN?
  }

  /** The JavaScript number `x` as a value. */
  function NumberOf(x: real): Json {
    Number(Finite(x))
  }

  /** Property read `v[key]` on a value that is not nullish (callers model the
      TypeError a nullish base raises). Own properties of objects and the
      `length` of arrays and strings are modelled; everything else reads as
      `undefined`. */
  function Get(v: Json, key: string): Json {
    match v
    case Obj(fields) => if key in fields then fields[key] else Undefined
    case Arr(items) => if key == "length" then NumberOf(|items| as real) else Undefined
    case Str(s) => if key == "length" then NumberOf(|s| as real) else Undefined
    case _ => Undefined
  }

  /** The property key a value is converted to when it indexes an object.
      Strings, booleans, `null` and `undefined` are converted as JavaScript
      does; numbers, arrays and objects are not modelled and yield `None`. */
  function PropertyKey(v: Json): (k: Option<string>)
    ensures v.Str? ==> k == Some(v.s)
    ensures v.Bool? ==> k == Some(if v.b then "true" else "false")
    ensures v.Null? ==> k == Some("null")
    ensures v.Undefined? ==> k == Some("undefined")
    ensures k.None? <==> v.Number? || v.Arr? || v.Obj?
  {
    match v
    case Str(s) => Some(s)
    case Bool(b) => Some(if b then "true" else "false")
    case Null => Some("null")
    case Undefined => Some("undefined")
    case _ => None
  }
}

=== FILE: orchestrator.dfy ===
/** The orchestration service (src/services/orchestrator.service.js): fan-out
    of a dataset to the enabled models, the training summary and the health
    check. The fan-out is modelled as a sequential map over the enabled keys;
    every remote request is an oracle argument. */
module Orchestrator {
  import opened Wrappers
  import opened JsValue
  import opened Config
  import opened Dispatch
  import opened Voting
  import Sensor

  /** Why `orchestrate`/`trainModels` throw: reading `discharges` of a nullish
      body (a TypeError), a `discharges` that is not an array, or no enabled model. */
  datatype OrchestrateError = NullishBody | InvalidFormat | NoModelsEnabled

  /** `{ models: responses, voting: votingResult }` */
  datatype Orchestration = Orchestration(models: seq<ModelResponse>, voting: VotingResult)

  /** `{ successful, failed, details }` */
  datatype TrainSummary = TrainSummary(successful: nat, failed: nat, details: seq<ModelResponse>)

  /** `data.discharges` is an array; an empty array passes. */
  predicate HasDischargeArray(data: Json) {
    !Nullish(data) && Get(data, "discharges").Arr?
  }

  /** The shared precondition check of `orchestrate` and `trainModels`. */
  function CheckDischarges(data: Json): (r: Option<OrchestrateError>)
    ensures r.None? <==> HasDischargeArray(data)
    ensures Nullish(data) ==> r == Some(NullishBody)
    ensures !Nullish(data) && !HasDischargeArray(data) ==> r == Some(InvalidFormat)
  {
    if Nullish(data) then Some(NullishBody)
    else if !Get(data, "discharges").Arr? then Some(InvalidFormat)
    else None
  }

  /** Every enabled model's prediction reply is one the tally can take. */
  predicate RepliesTallyable(reg: Registry, post: string -> Remote) {
    forall k :: k in reg.models && IsEnabled(reg.models[k]) ==> Tallyable(CallModel(reg, k, post))
  }

  /** `orchestrate(data)`: check the body, resolve the enabled keys, call each
      in registry order and reduce the responses by voting. */
  function Orchestrate(data: Json, reg: Registry, post: string -> Remote): (r: Result<Orchestration, OrchestrateError>)
    requires HasDischargeArray(data) ==> RepliesTallyable(reg, post)
    ensures r.Success? <==> HasDischargeArray(data) && EnabledKeys(reg) != []
    ensures Nullish(data) ==> r == Failure(NullishBody)
    ensures !Nullish(data) && !HasDischargeArray(data) ==> r == Failure(InvalidFormat)
    ensures HasDischargeArray(data) && EnabledKeys(reg) == [] ==> r == Failure(NoModelsEnabled)
    ensures r.Success? ==>
      && |r.value.models| == |EnabledKeys(reg)|
      && (forall i :: 0 <= i < |r.value.models| ==>
            && r.value.models[i].modelName == EnabledKeys(reg)[i]
            && r.value.models[i] == CallModel(reg, EnabledKeys(reg)[i], post)
            && r.value.models[i].Status().Some?)
      && AllTallyable(r.value.models)
      && r.value.voting == Vote(r.value.models)
      && (r.value.voting.Tally? ==> r.value.voting.totalModels == |EnabledKeys(reg)|)
  {
    match CheckDischarges(data)
    case Some(e) => Failure(e)
    case None =>
      var enabled := EnabledKeys(reg);
      if enabled == [] then Failure(NoModelsEnabled)
      else
        var responses := seq(|enabled|, i requires 0 <= i < |enabled| => CallModel(reg, enabled[i], post));
        assert AllTallyable(responses) by {
          forall r | r in responses
            ensures Tallyable(r)
          {
            var i :| 0 <= i < |responses| && responses[i] == r;
            assert enabled[i] in enabled;
          }
        }
        VoteTotals(responses);
        Success(Orchestration(responses, Vote(responses)))
  }

  /** Number of responses whose `status` is `s`. */
  function CountStatus(rs: seq<ModelResponse>, s: Status): nat {
    if rs == [] then 0
    else CountStatus(rs[..|rs| - 1], s) + (if rs[|rs| - 1].Status() == Some(s) then 1 else 0)
  }

  /** The summary `trainModels` returns. */
  function Summarize(rs: seq<ModelResponse>): TrainSummary {
    TrainSummary(CountStatus(rs, StatusSuccess), CountStatus(rs, StatusError), rs)
  }

  /** `successful + failed <= |details|`, with equality exactly when every
      response carries a status (an unavailable model's carries none). */
  lemma {:induction false} SummaryCounts(rs: seq<ModelResponse>)
    ensures Summarize(rs).successful + Summarize(rs).failed <= |Summarize(rs).details|
    ensures Summarize(rs).successful + Summarize(rs).failed == |rs| <==>
      forall i :: 0 <= i < |rs| ==> rs[i].Status().Some?
  {
    if rs != [] {
      var init := rs[..|rs| - 1];
      SummaryCounts(init);
      if forall i :: 0 <= i < |rs| ==> rs[i].Status().Some? {
        assert forall i :: 0 <= i < |init| ==> init[i] == rs[i];
      }
    }
  }

  /** `trainModels(data)`: the same checks as `orchestrate`, one training call
      per enabled model, and the success/error counts. */
  function TrainModels(data: Json, reg: Registry, post: string -> Remote): (r: Result<TrainSummary, OrchestrateError>)
    ensures r.Success? <==> HasDischargeArray(data) && EnabledKeys(reg) != []
    ensures Nullish(data) ==> r == Failure(NullishBody)
    ensures !Nullish(data) && !HasDischargeArray(data) ==> r == Failure(InvalidFormat)
    ensures HasDischargeArray(data) && EnabledKeys(reg) == [] ==> r == Failure(NoModelsEnabled)
    ensures r.Success? ==>
      && |r.value.details| == |EnabledKeys(reg)|
      && r.value.successful + r.value.failed == |r.value.details|
      && r.value.successful == CountStatus(r.value.details, StatusSuccess)
      && r.value.failed == CountStatus(r.value.details, StatusError)
      && (forall i :: 0 <= i < |r.value.details| ==>
            && r.value.details[i].modelName == EnabledKeys(reg)[i]
            && r.value.details[i] == TrainModel(reg, EnabledKeys(reg)[i], post)
            && (r.value.details[i].Status() == Some(StatusSuccess) <==>
                post(reg.models[EnabledKeys(reg)[i]].trainingUrl).Reply?))
  {
    match CheckDischarges(data)
    case Some(e) => Failure(e)
    case None =>
      var enabled := EnabledKeys(reg);
      if enabled == [] then Failure(NoModelsEnabled)
      else
        var responses := seq(|enabled|, i requires 0 <= i < |enabled| => TrainModel(reg, enabled[i], post));
        assert forall i :: 0 <= i < |responses| ==> enabled[i] in enabled;
        SummaryCounts(responses);
        Success(Summarize(responses))
  }

  // ---------------------------------------------------------------------------
  // Health check.

  datatype Health = Disabled | Online | Offline

  /** What a check carries besides its status: nothing for a disabled model,
      the probe's reply data, or the probe's error message. */
  datatype ProbeInfo = NotProbed | ProbeDetails(data: Json) | ProbeError(message: string)

  /** `{ model, status, available, details | error }` */
  datatype ModelCheck = ModelCheck(model: string, status: Health, available: bool, info: ProbeInfo)

  /** `{ timestamp, models, availableModels }` */
  datatype HealthReport = HealthReport(timestamp: Date, models: seq<ModelCheck>, availableModels: nat)

  /** The probe target `modelConfig.healthUrl`. Registry entries have no such
      property, so the read always yields `undefined`. */
  function HealthUrl(c: ModelConfig): Json {
    Undefined
  }

  /** The check of one model: a disabled model is reported without a probe. */
  function CheckModel(name: string, c: ModelConfig, probe: Json -> Remote): ModelCheck {
    if !IsEnabled(c) then ModelCheck(name, Disabled, false, NotProbed)
    else
      match probe(HealthUrl(c))
      case Reply(data) => ModelCheck(name, Online, true, ProbeDetails(data))
      case Fault(message) => ModelCheck(name, Offline, false, ProbeError(message))
  }

  /** The checks of `ks`, in order. */
  function CheckAll(reg: Registry, ks: seq<string>, probe: Json -> Remote): (cs: seq<ModelCheck>)
    requires forall k :: k in ks ==> k in reg.models
    ensures |cs| == |ks|
    ensures forall i :: 0 <= i < |ks| ==> cs[i].model == ks[i]
    ensures forall i :: 0 <= i < |ks| ==>
      (cs[i].status == Disabled <==> !IsEnabled(reg.models[ks[i]]))
    ensures forall i :: 0 <= i < |ks| ==>
      (cs[i].status == Disabled ==> !cs[i].available && cs[i].info == NotProbed)
    ensures forall i :: 0 <= i < |ks| ==> (cs[i].available <==> cs[i].status == Online)
    ensures forall i :: 0 <= i < |ks| && IsEnabled(reg.models[ks[i]]) ==>
      (cs[i].status == Online <==> probe(HealthUrl(reg.models[ks[i]])).Reply?)
    ensures forall i :: 0 <= i < |ks| && cs[i].status == Online ==>
      cs[i].info == ProbeDetails(probe(HealthUrl(reg.models[ks[i]])).data)
    ensures forall i :: 0 <= i < |ks| && cs[i].status == Offline ==>
      cs[i].info == ProbeError(probe(HealthUrl(reg.models[ks[i]])).message)
  {
    if ks == [] then []
    else [CheckModel(ks[0], reg.models[ks[0]], probe)] + CheckAll(reg, ks[1..], probe)
  }

  /** `results.filter(m => m.available).length` */
  function CountAvailable(cs: seq<ModelCheck>): nat {
    if cs == [] then 0 else CountAvailable(cs[..|cs| - 1]) + (if cs[|cs| - 1].available then 1 else 0)
  }

  /** Entries reported `online`. */
  function OnlineEntries(cs: seq<ModelCheck>): seq<ModelCheck> {
    if cs == [] then [] else OnlineEntries(cs[..|cs| - 1]) + (if cs[|cs| - 1].status == Online then [cs[|cs| - 1]] else [])
  }

  lemma {:induction false} AvailableIsOnline(cs: seq<ModelCheck>)
    requires forall i :: 0 <= i < |cs| ==> (cs[i].available <==> cs[i].status == Online)
    ensures CountAvailable(cs) == |OnlineEntries(cs)|
    ensures CountAvailable(cs) == 0 <==> forall i :: 0 <= i < |cs| ==> cs[i].status != Online
  {
    if cs != [] {
      var init := cs[..|cs| - 1];
      assert forall i :: 0 <= i < |init| ==> init[i] == cs[i];
      AvailableIsOnline(init);
    }
  }

  /** `healthCheck()`: one entry per registry key in key order, and the count
      of entries reported online. */
  function HealthCheck(reg: Registry, probe: Json -> Remote, now: Date): (h: HealthReport)
    requires reg.Valid()
    ensures h.timestamp == now
    ensures |h.models| == |reg.keys|
    ensures forall i :: 0 <= i < |reg.keys| ==> h.models[i].model == reg.keys[i]
    ensures forall i :: 0 <= i < |reg.keys| ==>
      (h.models[i].status == Disabled <==> !IsEnabled(reg.models[reg.keys[i]]))
    ensures forall i :: 0 <= i < |reg.keys| && h.models[i].status == Disabled ==>
      !h.models[i].available && h.models[i].info == NotProbed
    ensures forall i :: 0 <= i < |reg.keys| && IsEnabled(reg.models[reg.keys[i]]) ==>
      (h.models[i].status == Online <==> probe(HealthUrl(reg.models[reg.keys[i]])).Reply?) &&
      (h.models[i].available <==> h.models[i].status == Online)
    ensures forall i :: 0 <= i < |reg.keys| && h.models[i].status == Online ==>
      h.models[i].info == ProbeDetails(probe(HealthUrl(reg.models[reg.keys[i]])).data)
    ensures forall i :: 0 <= i < |reg.keys| && h.models[i].status == Offline ==>
      h.models[i].info == ProbeError(probe(HealthUrl(reg.models[reg.keys[i]])).message)
    ensures h.availableModels == |OnlineEntries(h.models)|
    ensures h.availableModels == 0 <==> forall i :: 0 <= i < |h.models| ==> h.models[i].status != Online
  {
    var cs := CheckAll(reg, reg.keys, probe);
    AvailableIsOnline(cs);
    HealthReport(now, cs, CountAvailable(cs))
  }

  /** Every enabled model is probed at the same (absent) address, so all of
      them get the same status from one probe outcome: they are all online or
      all offline together. */
  lemma ProbesShareOneTarget(reg: Registry, probe: Json -> Remote, now: Date, i: nat, j: nat)
    requires reg.Valid()
    requires i < |reg.keys| && j < |reg.keys|
    requires IsEnabled(reg.models[reg.keys[i]]) && IsEnabled(reg.models[reg.keys[j]])
    ensures HealthCheck(reg, probe, now).models[i].status == HealthCheck(reg, probe, now).models[j].status
  {
  }

  // ---------------------------------------------------------------------------
  // Sensor files.

  /** An uploaded file: `{ name, content }`. */
  datatype SensorFile = SensorFile(name: string, content: string)

  /** Why `parseSensorFiles` throws: reading a file's anomaly time from a
      `null` table raises a TypeError, which is rethrown naming the file. */
  datatype ParseError = AnomalyTableNull(fileName: string)

  /** `anomalyTimes[name] || null`: a falsy entry (absent, `0`, `""`, `false`)
      becomes `null`. */
  function AnomalyTimeOf(anomalyTimes: Json, name: string): (t: Json)
    requires !anomalyTimes.Null?
    ensures Truthy(t) || t == Null
    ensures Truthy(Get(anomalyTimes, name)) <==> t == Get(anomalyTimes, name) && t != Null
    ensures !Truthy(Get(anomalyTimes, name)) ==> t == Null
  {
    var t := Get(anomalyTimes, name);
    if Truthy(t) then t else Null
  }

  /** `parseSensorFiles(files, anomalyTimes = {})`: one signal per file, in
      file order. An omitted table is `undefined`, which reads like `{}`. */
  function ParseSensorFiles(files: seq<SensorFile>, anomalyTimes: Json, parseFloat: string -> Num)
    : (r: Result<seq<Sensor.SensorData>, ParseError>)
    ensures r.Failure? <==> files != [] && anomalyTimes.Null?
    ensures r.Failure? ==> r.error == AnomalyTableNull(files[0].name)
    ensures r.Success? ==>
      && |r.value| == |files|
      && forall i :: 0 <= i < |files| ==>
           && r.value[i].fileName == files[i].name
           && r.value[i].length == |r.value[i].times| == |r.value[i].values|
           && (Truthy(Get(anomalyTimes, files[i].name)) ==> r.value[i].anomalyTime == Get(anomalyTimes, files[i].name))
           && (!Truthy(Get(anomalyTimes, files[i].name)) ==> r.value[i].anomalyTime == Null)
           && r.value[i].times == Sensor.Times(Sensor.Points(Sensor.Lines(files[i].content), parseFloat))
           && r.value[i].values == Sensor.Values(Sensor.Points(Sensor.Lines(files[i].content), parseFloat))
  {
    if files == [] then Success([])
    else if anomalyTimes.Null? then Failure(AnomalyTableNull(files[0].name))
    else
      Success(seq(|files|, i requires 0 <= i < |files| =>
        Sensor.ParseText(files[i].name, files[i].content, AnomalyTimeOf(anomalyTimes, files[i].name), parseFloat)))
  }
}

=== FILE: realtime.dfy ===
/** The real-time channel (src/utils/socket.js): the bounded prediction
    history, the per-model status map refreshed from health checks, manual
    predictions and the enable/disable toggle. The socket server is replaced by
    the events each handler emits; clocks are `Date` arguments. */
module Realtime {
  import opened Wrappers
  import opened JsValue
  import opened Config
  import opened Dispatch
  import opened Voting
  import opened Orchestrator

  /** The history keeps at most this many records. */
  const HistoryCap: nat := 100

  // ---------------------------------------------------------------------------
  // Prediction history.

  /** `{ timestamp, result, confidence, votes, details }` */
  datatype PredictionRecord = PredictionRecord(
    timestamp: Date,
    result: Option<Label>,
    confidence: real,
    votes: Option<(nat, nat)>,
    details: Orchestration)

  function Min(a: nat, b: nat): nat {
    if a <= b then a else b
  }

  /** `addPrediction`: `unshift`, then `pop` when over the cap. The newest
      record goes in front and, once the cap is passed, the oldest one leaves. */
  function AddPrediction<T>(log: seq<T>, p: T): (r: seq<T>)
    ensures |log| < HistoryCap ==> |r| == |log| + 1
    ensures |log| >= HistoryCap ==> |r| == |log|
    ensures |r| >= 1 && r[0] == p
    ensures r[1..] == log[..|r| - 1]
  {
    var grown := [p] + log;
    if |grown| > HistoryCap then grown[..|grown| - 1] else grown
  }

  /** The history after adding `ps` in order to `log`. */
  function AddAll<T>(log: seq<T>, ps: seq<T>): seq<T> {
    if ps == [] then log else AddPrediction(AddAll(log, ps[..|ps| - 1]), ps[|ps| - 1])
  }

  /** `ps` newest first. */
  function Reverse<T>(ps: seq<T>): (r: seq<T>)
    ensures |r| == |ps|
    ensures forall i :: 0 <= i < |ps| ==> r[i] == ps[|ps| - 1 - i]
  {
    if ps == [] then [] else [ps[|ps| - 1]] + Reverse(ps[..|ps| - 1])
  }

  /** Starting empty, the history is always the most recent `HistoryCap`
      records (or all of them, if fewer), newest first. */
  lemma {:induction false} HistoryIsMostRecent<T>(ps: seq<T>)
    ensures AddAll([], ps) == Reverse(ps)[..Min(|ps|, HistoryCap)]
  {
    if ps != [] {
      var init := ps[..|ps| - 1];
      var last := ps[|ps| - 1];
      HistoryIsMostRecent(init);
      var before := Reverse(init)[..Min(|init|, HistoryCap)];
      assert AddAll([], ps) == AddPrediction(before, last);
      assert Reverse(ps) == [last] + Reverse(init);
      if |init| >= HistoryCap {
        assert AddPrediction(before, last) == ([last] + before)[..HistoryCap];
        assert ([last] + before)[..HistoryCap] == ([last] + Reverse(init))[..HistoryCap];
      } else {
        assert before == Reverse(init);
      }
    }
  }

  /** The cap holds whatever was there before. */
  lemma {:induction false} HistoryBounded<T>(log: seq<T>, ps: seq<T>)
    requires |log| <= HistoryCap
    ensures |AddAll(log, ps)| <= HistoryCap
    ensures |AddAll(log, ps)| == Min(|log| + |ps|, HistoryCap)
  {
    if ps != [] {
      HistoryBounded(log, ps[..|ps| - 1]);
    }
  }

  // ---------------------------------------------------------------------------
  // Model status map.

  /** `'unknown'` until the first check, then the status the check reported. */
  datatype LiveState = Unknown | Reported(health: Health)

  /** `{ status, lastCheck }` */
  datatype LiveStatus = LiveStatus(status: LiveState, lastCheck: Option<Date>)

  type StatusMap = map<string, LiveStatus>

  /** The map the channel starts with: the three stock models, never checked. */
  function InitialStatus(): (m: StatusMap)
    ensures m.Keys == {"svm", "lstm", "xgboost"}
    ensures forall k :: k in m ==> m[k] == LiveStatus(Unknown, None)
  {
    map["svm" := LiveStatus(Unknown, None), "lstm" := LiveStatus(Unknown, None), "xgboost" := LiveStatus(Unknown, None)]
  }

  /** `health.models.forEach(model => modelStatus[model.model] = { ... })`. All
      assignments of one pass are stamped with the same `now`. */
  function ApplyHealth(m: StatusMap, checks: seq<ModelCheck>, now: Date): (r: StatusMap)
    ensures r.Keys == m.Keys + set i | 0 <= i < |checks| :: checks[i].model
    ensures forall k :: k in m && (forall i :: 0 <= i < |checks| ==> checks[i].model != k) ==> r[k] == m[k]
  {
    if checks == [] then m
    else
      var c := checks[|checks| - 1];
      var init := checks[..|checks| - 1];
      var before := ApplyHealth(m, init, now);
      assert forall i :: 0 <= i < |init| ==> init[i] == checks[i];
      assert (set i | 0 <= i < |checks| :: checks[i].model) == (set i | 0 <= i < |init| :: init[i].model) + {c.model};
      before[c.model := LiveStatus(Reported(c.status), Some(now))]
  }

  /** The last check of a model decides its entry. */
  lemma {:induction false} LastCheckWins(m: StatusMap, checks: seq<ModelCheck>, now: Date, i: nat)
    requires i < |checks|
    requires forall j :: i < j < |checks| ==> checks[j].model != checks[i].model
    ensures ApplyHealth(m, checks, now)[checks[i].model] == LiveStatus(Reported(checks[i].status), Some(now))
  {
    var init := checks[..|checks| - 1];
    if i < |checks| - 1 {
      assert forall j :: i < j < |init| ==> init[j] == checks[j];
      LastCheckWins(m, init, now, i);
    }
  }

  /** One refresh (the 30-second timer, or a client's `request-health`): the
      map after merging a fresh health check, which is what `health-update`
      carries. */
  function HealthRefresh(m: StatusMap, reg: Registry, probe: Json -> Remote, now: Date): (r: StatusMap)
    requires reg.Valid()
    ensures r.Keys == m.Keys + set k | k in reg.keys
    ensures forall k :: k in m && k !in reg.keys ==> r[k] == m[k]
  {
    var h := HealthCheck(reg, probe, now);
    CheckedModels(reg, h);
    ApplyHealth(m, h.models, now)
  }

  /** A health report names exactly the registry's keys. */
  lemma CheckedModels(reg: Registry, h: HealthReport)
    requires |h.models| == |reg.keys|
    requires forall i :: 0 <= i < |reg.keys| ==> h.models[i].model == reg.keys[i]
    ensures (set i | 0 <= i < |h.models| :: h.models[i].model) == set k | k in reg.keys
    ensures forall k :: k !in reg.keys ==> forall i :: 0 <= i < |h.models| ==> h.models[i].model != k
  {
    forall k | k in reg.keys
      ensures k in (set i | 0 <= i < |h.models| :: h.models[i].model)
    {
      var i :| 0 <= i < |reg.keys| && reg.keys[i] == k;
      assert h.models[i].model == k;
    }
  }

  /** After a refresh every registry model's entry holds the status its check
      reported, stamped with the refresh time. */
  lemma RefreshReportsEachModel(m: StatusMap, reg: Registry, probe: Json -> Remote, now: Date, i: nat)
    requires reg.Valid() && i < |reg.keys|
    ensures HealthRefresh(m, reg, probe, now)[reg.keys[i]] ==
      LiveStatus(Reported(HealthCheck(reg, probe, now).models[i].status), Some(now))
  {
    var h := HealthCheck(reg, probe, now);
    assert forall j :: i < j < |h.models| ==> h.models[j].model != h.models[i].model by {
      forall j | i < j < |h.models|
        ensures h.models[j].model != h.models[i].model
      {
        assert reg.keys[j] != reg.keys[i];
      }
    }
    LastCheckWins(m, h.models, now, i);
  }

  /** A refresh never removes an entry, even for a model no longer in the
      registry: it keeps its last reported status. */
  lemma RefreshKeepsEntries(m: StatusMap, reg: Registry, probe: Json -> Remote, now: Date, k: string)
    requires reg.Valid() && k in m
    ensures k in HealthRefresh(m, reg, probe, now)
    ensures k !in reg.keys ==> HealthRefresh(m, reg, probe, now)[k] == m[k]
  {
  }

  // ---------------------------------------------------------------------------
  // Socket handlers.

  /** `{ name, enabled }` of a `config-update` broadcast. */
  datatype EnabledView = EnabledView(name: string, enabled: Json)

  /** The events a handler emits, to everyone or to the requesting socket. */
  datatype Event =
    | HealthUpdate(status: StatusMap)
    | NewPrediction(record: PredictionRecord)
    | PredictionResult(result: Orchestration)
    | ConfigUpdate(models: seq<EnabledView>)
    | ToggleSucceeded(modelName: string, enabled: bool)
    | UnknownModel(requested: Json)
    | PredictionFailed

  /** `Object.keys(models).map(model => ({ name, enabled }))` */
  function EnabledViews(reg: Registry): (vs: seq<EnabledView>)
    requires reg.Valid()
    ensures |vs| == |reg.keys|
    ensures forall i :: 0 <= i < |vs| ==> vs[i] == EnabledView(reg.keys[i], reg.models[reg.keys[i]].enabled)
  {
    seq(|reg.keys|, i requires 0 <= i < |reg.keys| => EnabledView(reg.keys[i], reg.models[reg.keys[i]].enabled))
  }

  /** The record a successful prediction is logged as. */
  function RecordOf(o: Orchestration, now: Date): PredictionRecord {
    PredictionRecord(now, o.voting.Decision(), o.voting.Confidence(), o.voting.Votes(), o)
  }

  /** `run-prediction`: orchestrate; on success log a record (broadcast as
      `new-prediction`) and answer the socket with the result; on failure the
      history is untouched and the socket gets an error. */
  function RunPrediction(history: seq<PredictionRecord>, data: Json, reg: Registry, post: string -> Remote, now: Date)
    : (r: (seq<PredictionRecord>, seq<Event>))
    requires HasDischargeArray(data) ==> RepliesTallyable(reg, post)
    ensures Orchestrate(data, reg, post).Failure? <==> r.1 == [PredictionFailed]
    ensures Orchestrate(data, reg, post).Failure? ==> r.0 == history
    ensures Orchestrate(data, reg, post).Success? ==>
      var o := Orchestrate(data, reg, post).value;
      && |r.0| == (if |history| < HistoryCap then |history| + 1 else |history|)
      && r.0[1..] == history[..|r.0| - 1]
      && r.0[0].timestamp == now
      && r.0[0].result == o.voting.Decision()
      && r.0[0].confidence == o.voting.Confidence()
      && r.0[0].votes == o.voting.Votes()
      && r.0[0].details == o
      && r.1 == [NewPrediction(r.0[0]), PredictionResult(o)]
  {
    match Orchestrate(data, reg, post)
    case Failure(_) => (history, [PredictionFailed])
    case Success(o) =>
      var record := RecordOf(o, now);
      (AddPrediction(history, record), [NewPrediction(record), PredictionResult(o)])
  }

  /** `registerPrediction`: log a record produced elsewhere and broadcast it. */
  function RegisterPrediction(history: seq<PredictionRecord>, p: PredictionRecord): (r: (seq<PredictionRecord>, Event))
    ensures |r.0| == (if |history| < HistoryCap then |history| + 1 else |history|)
    ensures r.0[0] == p && r.0[1..] == history[..|r.0| - 1]
    ensures r.1 == NewPrediction(p)
  {
    (AddPrediction(history, p), NewPrediction(p))
  }

  /** How a listener ends without emitting anything: the promise of the
      `async` listener rejects with a TypeError that nothing handles. */
  datatype ListenerFault = UnhandledTypeError

  /** `toggle-model`: the listener destructures `{ modelName, enabled }` in its
      parameter list, before its `try`, so a nullish payload rejects the
      listener's promise and nothing catches it. Otherwise a known model's
      `enabled` becomes whatever the client sent (not checked to be a
      boolean) and the new flags are broadcast; an unknown one is reported to
      the socket. */
  function ToggleModel(reg: Registry, payload: Json): (r: Result<(Registry, seq<Event>), ListenerFault>)
    requires reg.Valid()
    ensures r.Failure? <==> Nullish(payload)
    ensures r.Failure? ==> r.error == UnhandledTypeError
    ensures r.Success? ==> r.value.0.Valid() && r.value.0.keys == reg.keys
    ensures r.Success? ==>
      var name := PropertyKey(Get(payload, "modelName"));
      if name.Some? && name.value in reg.models then
        && r.value.0.models == reg.models[name.value := reg.models[name.value].(enabled := Get(payload, "enabled"))]
        && r.value.1 == [ConfigUpdate(EnabledViews(r.value.0)), ToggleSucceeded(name.value, Truthy(Get(payload, "enabled")))]
      else
        r.value == (reg, [UnknownModel(Get(payload, "modelName"))])
  {
    if Nullish(payload) then Failure(UnhandledTypeError)
    else
      var name := PropertyKey(Get(payload, "modelName"));
      var enabled := Get(payload, "enabled");
      if name.Some? && name.value in reg.models then
        var reg' := SetEnabled(reg, name.value, enabled);
        Success((reg', [ConfigUpdate(EnabledViews(reg')), ToggleSucceeded(name.value, Truthy(enabled))]))
      else
        Success((reg, [UnknownModel(Get(payload, "modelName"))]))
  }

  /** Toggling a model changes which models later predictions go to exactly
      as its flag says: the model is among the enabled ones iff the value sent
      is truthy, and no other model's enabledness changes. */
  lemma ToggleDecidesEnabled(reg: Registry, payload: Json, k: string)
    requires reg.Valid()
    requires !Nullish(payload) && PropertyKey(Get(payload, "modelName")).Some?
    requires PropertyKey(Get(payload, "modelName")).value in reg.models
    requires k in reg.models
    ensures var name := PropertyKey(Get(payload, "modelName")).value;
      k in EnabledKeys(ToggleModel(reg, payload).value.0) <==>
        if k == name then Truthy(Get(payload, "enabled")) else k in EnabledKeys(reg)
  {
    var name := PropertyKey(Get(payload, "modelName")).value;
    assert ToggleModel(reg, payload).value.0 == SetEnabled(reg, name, Get(payload, "enabled"));
  }
}

=== FILE: sensor.dfy ===
/** Sensor signals (src/models/sensor-data.model.js): the `SensorData`
    record with its equal-length invariant, the text-file parser and the
    JSON form sent to the models. `parseFloat` is an oracle argument. */
module Sensor {
  import opened Wrappers
  import opened JsValue

  // ---------------------------------------------------------------------------
  // The string operations the parser relies on.

  /** The characters JavaScript's `trim()` removes and `\s` matches. */
  predicate IsSpace(c: char) {
    || c == ' ' || c == '\t' || c == '\n' || c == '\U{000B}' || c == '\U{000C}' || c == '\r'
    || c == '\U{00A0}' || c == '\U{1680}' || ('\U{2000}' <= c <= '\U{200A}')
    || c == '\U{2028}' || c == '\U{2029}' || c == '\U{202F}' || c == '\U{205F}'
    || c == '\U{3000}' || c == '\U{FEFF}'
  }

  predicate NoSpace(s: string) {
    forall i :: 0 <= i < |s| ==> !IsSpace(s[i])
  }

  /** Drops leading white space; the result is a suffix starting with a non-space. */
  function TrimStart(s: string): (r: string)
    ensures |r| <= |s| && r == s[|s| - |r|..]
    ensures r != [] ==> !IsSpace(r[0])
    ensures forall i :: 0 <= i < |s| - |r| ==> IsSpace(s[i])
  {
    if s != [] && IsSpace(s[0]) then TrimStart(s[1..]) else s
  }

  /** Drops trailing white space; the result is a prefix ending in a non-space. */
  function TrimEnd(s: string): (r: string)
    ensures |r| <= |s| && r == s[..|r|]
    ensures r != [] ==> !IsSpace(r[|r| - 1])
    ensures forall i :: |r| <= i < |s| ==> IsSpace(s[i])
  {
    if s != [] && IsSpace(s[|s| - 1]) then TrimEnd(s[..|s| - 1]) else s
  }

  /** `r` is the slice of `s` starting at `a`, and everything of `s` outside
      it is white space. */
  predicate SpaceAround(s: string, r: string, a: int) {
    && 0 <= a <= |s| - |r|
    && r == s[a..a + |r|]
    && forall i :: 0 <= i < |s| && (i < a || a + |r| <= i) ==> IsSpace(s[i])
  }

  /** `s.trim()`: neither end of the result is white space. */
  function Trim(s: string): (r: string)
    ensures |r| <= |s|
    ensures r != [] ==> !IsSpace(r[0]) && !IsSpace(r[|r| - 1])
  {
    TrimEnd(TrimStart(s))
  }

  /** `s.trim()` is a slice of `s` with only white space outside it; with
      `Trim`'s own contract (no white space at either end of the slice) this
      fixes the result. */
  lemma TrimIsSlice(s: string)
    ensures exists a :: SpaceAround(s, Trim(s), a)
  {
    var t := TrimStart(s);
    assert Trim(s) == TrimEnd(t);
    TrimSlice(s, t, TrimEnd(t));
    assert SpaceAround(s, Trim(s), |s| - |t|);
  }

  /** Trimming keeps the slice of `s` after its leading and before its
      trailing white space. */
  lemma TrimSlice(s: string, t: string, r: string)
    requires |t| <= |s| && t == s[|s| - |t|..]
    requires forall i :: 0 <= i < |s| - |t| ==> IsSpace(s[i])
    requires |r| <= |t| && r == t[..|r|]
    requires forall i :: |r| <= i < |t| ==> IsSpace(t[i])
    ensures SpaceAround(s, r, |s| - |t|)
  {
    var a := |s| - |t|;
    assert r == s[a..a + |r|] by {
      SliceOfSuffix(s, a, |r|);
    }
    SpacesAfterPrefix(s, t, |r|);
  }

  lemma SliceOfSuffix(s: string, a: nat, k: nat)
    requires a + k <= |s|
    ensures s[a..][..k] == s[a..a + k]
  {
  }

  /** White space after a prefix of a suffix `t` of `s` is white space of `s`. */
  lemma SpacesAfterPrefix(s: string, t: string, k: nat)
    requires |t| <= |s| && t == s[|s| - |t|..] && k <= |t|
    requires forall i :: k <= i < |t| ==> IsSpace(t[i])
    ensures forall i :: |s| - |t| + k <= i < |s| ==> IsSpace(s[i])
  {
    forall i | |s| - |t| + k <= i < |s|
      ensures IsSpace(s[i])
    {
      assert s[i] == t[i - (|s| - |t|)];
    }
  }

  /** A string with no white space at either end is its own trim. */
  lemma TrimKeepsTrimmed(s: string)
    requires s != [] && !IsSpace(s[0]) && !IsSpace(s[|s| - 1])
    ensures Trim(s) == s
  {
    assert TrimStart(s) == s;
  }

  /** `s.split('\n')`: the pieces between line feeds, at least one. */
  function SplitLines(s: string): (parts: seq<string>)
    ensures |parts| >= 1
    ensures forall p :: p in parts ==> '\n' !in p
  {
    if s == "" then [""]
    else
      var rest := SplitLines(s[1..]);
      if s[0] == '\n' then [""] + rest
      else [[s[0]] + rest[0]] + rest[1..]
  }

  /** `parts.join('\n')` */
  function JoinLines(parts: seq<string>): string
    requires |parts| >= 1
  {
    if |parts| == 1 then parts[0] else parts[0] + "\n" + JoinLines(parts[1..])
  }

  /** Splitting on line feeds loses nothing: joining the lines back with
      line feeds restores the text. */
  lemma {:induction false} SplitLinesJoin(s: string)
    ensures JoinLines(SplitLines(s)) == s
  {
    if s != "" {
      var rest := SplitLines(s[1..]);
      SplitLinesJoin(s[1..]);
      if s[0] == '\n' {
        assert ([""] + rest)[1..] == rest;
        assert s == [s[0]] + s[1..];
      } else {
        var parts := [[s[0]] + rest[0]] + rest[1..];
        if |rest| == 1 {
          assert JoinLines(parts) == [s[0]] + rest[0];
        } else {
          assert parts[1..] == rest[1..];
          assert JoinLines(rest) == rest[0] + "\n" + JoinLines(rest[1..]);
        }
        assert s == [s[0]] + s[1..];
      }
    }
  }

  /** The longest prefix without white space. */
  function TakeWord(s: string): (w: string)
    ensures |w| <= |s| && w == s[..|w|] && NoSpace(w)
    ensures |w| < |s| ==> IsSpace(s[|w|])
    ensures s != [] && !IsSpace(s[0]) ==> |w| > 0
  {
    if s == [] || IsSpace(s[0]) then [] else [s[0]] + TakeWord(s[1..])
  }

  /** Dropping a leading run of white space shortens a text that starts with one. */
  lemma TrimStartShrinks(s: string)
    requires s != [] && IsSpace(s[0])
    ensures |TrimStart(s)| < |s|
  {
  }

  /** Dropping a leading run of white space keeps a last character that is
      not white space. */
  lemma TrimStartKeepsLast(s: string)
    requires s != [] && !IsSpace(s[|s| - 1])
    ensures TrimStart(s) != [] && TrimStart(s)[|TrimStart(s)| - 1] == s[|s| - 1]
  {
  }

  /** `s.split(/\s+/)`: the pieces between maximal runs of white space. A
      leading or trailing run yields an empty first or last piece, and the
      empty string yields one empty piece. */
  function SplitSpaces(s: string): (parts: seq<string>)
    ensures |parts| >= 1
    ensures forall p :: p in parts ==> NoSpace(p)
    decreases |s|
  {
    var w := TakeWord(s);
    var rest := s[|w|..];
    if rest == [] then [w]
    else
      assert rest[0] == s[|w|];
      TrimStartShrinks(rest);
      [w] + SplitSpaces(TrimStart(rest))
  }

  /** `parts.join(' ')` */
  function JoinSpaces(parts: seq<string>): string
    requires |parts| >= 1
  {
    if |parts| == 1 then parts[0] else parts[0] + (" " + JoinSpaces(parts[1..]))
  }

  /** The text with every maximal run of white space replaced by one space,
      computed character by character: a white-space character followed by
      another is dropped, and the last one of a run becomes a space. */
  function Collapse(s: string): string {
    if s == [] then []
    else if !IsSpace(s[0]) then [s[0]] + Collapse(s[1..])
    else if |s| > 1 && IsSpace(s[1]) then Collapse(s[1..])
    else " " + Collapse(s[1..])
  }

  /** One unfolding of `SplitSpaces`: the first word, then either nothing or
      a white-space run and the pieces of what follows it. */
  lemma SplitSpacesStep(s: string) returns (w: string, rest: string)
    ensures w == TakeWord(s) && s == w + rest
    ensures rest == [] ==> SplitSpaces(s) == [w]
    ensures rest != [] ==> IsSpace(rest[0]) && |TrimStart(rest)| < |s|
    ensures rest != [] ==> SplitSpaces(s) == [w] + SplitSpaces(TrimStart(rest))
  {
    w := TakeWord(s);
    rest := s[|w|..];
    assert s == s[..|w|] + rest;
    if rest != [] {
      assert rest[0] == s[|w|];
      TrimStartShrinks(rest);
      assert SplitSpaces(s) == [w] + SplitSpaces(TrimStart(rest));
    }
  }

  lemma JoinSpacesCons(w: string, tail: seq<string>)
    requires |tail| >= 1
    ensures JoinSpaces([w] + tail) == w + (" " + JoinSpaces(tail))
  {
    assert ([w] + tail)[1..] == tail;
  }

  /** Collapsing passes a word through unchanged. */
  lemma {:induction false} CollapseWord(w: string, t: string)
    requires NoSpace(w)
    ensures Collapse(w + t) == w + Collapse(t)
  {
    if w != [] {
      var x := w + t;
      assert x[0] == w[0] && !IsSpace(x[0]);
      assert x[1..] == w[1..] + t;
      assert Collapse(x) == [w[0]] + Collapse(w[1..] + t);
      CollapseWord(w[1..], t);
      assert w == [w[0]] + w[1..];
    } else {
      assert w + t == t;
    }
  }

  /** A run of white space collapses to one space. */
  lemma {:induction false} CollapseRun(s: string)
    requires s != [] && IsSpace(s[0])
    ensures Collapse(s) == " " + Collapse(TrimStart(s))
  {
    if |s| > 1 && IsSpace(s[1]) {
      CollapseRun(s[1..]);
    }
  }

  /** `split(/\s+/)` against the character-by-character reference: the pieces,
      none of which holds white space, joined by single spaces give the text
      with its white-space runs collapsed. Since no piece holds a space, this
      fixes the pieces. */
  lemma {:induction false} SplitSpacesJoin(s: string)
    ensures JoinSpaces(SplitSpaces(s)) == Collapse(s)
    decreases |s|
  {
    var w, rest := SplitSpacesStep(s);
    CollapseWord(w, rest);
    assert Collapse(s) == w + Collapse(rest);
    if rest == [] {
      assert Collapse(s) == w + [];
    } else {
      var d := TrimStart(rest);
      var tail := SplitSpaces(d);
      SplitSpacesJoin(d);
      assert JoinSpaces(tail) == Collapse(d);
      CollapseRun(rest);
      assert Collapse(rest) == " " + Collapse(d);
      JoinSpacesCons(w, tail);
      assert JoinSpaces(SplitSpaces(s)) == w + (" " + Collapse(d));
    }
  }

  /** A string with no white space at either end splits into non-empty words. */
  lemma {:induction false} SplitTrimmedWords(s: string)
    ensures s != [] && !IsSpace(s[0]) && !IsSpace(s[|s| - 1]) ==> forall p :: p in SplitSpaces(s) ==> p != []
    decreases |s|
  {
    var w := TakeWord(s);
    var rest := s[|w|..];
    if s != [] && !IsSpace(s[0]) && !IsSpace(s[|s| - 1]) && rest != [] {
      assert rest[|rest| - 1] == s[|s| - 1];
      SplitTrimmedWords(TrimStart(rest));
    }
  }

  /** `line.trim().split(/\s+/)` */
  function Fields(line: string): (parts: seq<string>)
    ensures |parts| >= 1
    ensures forall p :: p in parts ==> NoSpace(p)
    ensures Trim(line) != [] ==> forall p :: p in parts ==> p != []
  {
    SplitTrimmedWords(Trim(line));
    SplitSpaces(Trim(line))
  }

  /** The fields of a line, joined by single spaces, are the trimmed line
      with its white-space runs collapsed. */
  lemma FieldsJoin(line: string)
    ensures JoinSpaces(Fields(line)) == Collapse(Trim(line))
  {
    SplitSpacesJoin(Trim(line));
  }

  /** `content.trim().split('\n')` */
  function Lines(content: string): seq<string> {
    SplitLines(Trim(content))
  }

  lemma {:induction false} TakeWordOfWord(w: string)
    requires NoSpace(w)
    ensures TakeWord(w) == w
  {
    if w != [] {
      TakeWordOfWord(w[1..]);
    }
  }

  lemma {:induction false} TakeWordAppend(s: string, x: string)
    ensures |TakeWord(s)| < |s| ==> TakeWord(s + x) == TakeWord(s)
    ensures TakeWord(s) == s && x != [] && IsSpace(x[0]) ==> TakeWord(s + x) == s
  {
    if s != [] {
      assert (s + x)[1..] == s[1..] + x;
      TakeWordAppend(s[1..], x);
    } else {
      assert s + x == x;
    }
  }

  lemma {:induction false} TrimStartAppend(r: string, x: string)
    requires TrimStart(r) != []
    ensures TrimStart(r + x) == TrimStart(r) + x
  {
    assert (r + x)[0] == r[0];
    if IsSpace(r[0]) {
      assert (r + x)[1..] == r[1..] + x;
      TrimStartAppend(r[1..], x);
    }
  }

  /** The white-space run ends at `k` when everything before `k` is white
      space and the character at `k` is not. */
  lemma {:induction false} TrimStartAt(s: string, k: nat)
    requires k < |s| && !IsSpace(s[k])
    requires forall i :: 0 <= i < k ==> IsSpace(s[i])
    ensures TrimStart(s) == s[k..]
  {
    if k > 0 {
      assert IsSpace(s[0]);
      var t := s[1..];
      assert t[k - 1] == s[k];
      assert forall i :: 0 <= i < k - 1 ==> t[i] == s[i + 1];
      TrimStartAt(t, k - 1);
      assert t[k - 1..] == s[k..];
    }
  }

  /** A single word is one field. */
  lemma WordSplitsToItself(w: string)
    requires NoSpace(w) && w != []
    ensures SplitSpaces(w) == [w]
  {
    TakeWordOfWord(w);
  }

  /** Appending a separator and one more word to a string with no white space
      at its end appends exactly that word to its fields. */
  lemma SplitSpacesAppendToWord(s: string, w: string)
    requires s != [] && TakeWord(s) == s
    requires NoSpace(w) && w != []
    ensures SplitSpaces(s + (" " + w)) == SplitSpaces(s) + [w]
  {
    var sw := " " + w;
    var t := s + sw;
    TakeWordAppend(s, sw);
    assert t[|s|..] == sw;
    assert SplitSpaces(s) == [s];
    assert TrimStart(sw) == w by {
      assert sw[1..] == w;
      assert TrimStart(w) == w;
    }
    WordSplitsToItself(w);
    assert SplitSpaces(t) == [s] + SplitSpaces(w);
  }

  lemma SplitSpacesAppendStep(s: string, sw: string) returns (d: string)
    requires s != [] && !IsSpace(s[|s| - 1]) && TakeWord(s) != s
    ensures d != [] && !IsSpace(d[|d| - 1]) && |d| < |s|
    ensures SplitSpaces(s) == [TakeWord(s)] + SplitSpaces(d)
    ensures SplitSpaces(s + sw) == [TakeWord(s)] + SplitSpaces(d + sw)
  {
    var wd := TakeWord(s);
    var t := s + sw;
    TakeWordAppend(s, sw);
    var rest := s[|wd|..];
    assert t[|wd|..] == rest + sw;
    assert rest != [] && rest[|rest| - 1] == s[|s| - 1];
    d := TrimStart(rest);
    TrimStartAppend(rest, sw);
  }

  lemma {:induction false} SplitSpacesAppendWord(s: string, w: string)
    requires s != [] && !IsSpace(s[|s| - 1])
    requires NoSpace(w) && w != []
    ensures SplitSpaces(s + (" " + w)) == SplitSpaces(s) + [w]
    decreases |s|
  {
    if TakeWord(s) == s {
      SplitSpacesAppendToWord(s, w);
    } else {
      var d := SplitSpacesAppendStep(s, " " + w);
      SplitSpacesAppendWord(d, w);
    }
  }

  // ---------------------------------------------------------------------------
  // The parser.

  /** The point one line contributes: none with fewer than two fields, none
      when either of the first two fields parses to NaN, and otherwise the
      parsed first two fields; later fields are ignored. */
  function PointOf(line: string, parseFloat: string -> Num): (p: Option<(Num, Num)>)
    ensures |Fields(line)| < 2 ==> p.None?
    ensures p.Some? ==> |Fields(line)| >= 2 && p.value == (parseFloat(Fields(line)[0]), parseFloat(Fields(line)[1]))
    ensures p.Some? ==> !p.value.0.NaN? && !p.value.1.NaN?
    ensures |Fields(line)| >= 2 && !parseFloat(Fields(line)[0]).NaN? && !parseFloat(Fields(line)[1]).NaN? ==> p.Some?
  {
    var parts := Fields(line);
    if |parts| >= 2 then
      var time := parseFloat(parts[0]);
      var value := parseFloat(parts[1]);
      if !time.NaN? && !value.NaN? then Some((time, value)) else None
    else None
  }

  /** The points of the accepted lines, in line order. */
  function Points(lines: seq<string>, parseFloat: string -> Num): seq<(Num, Num)> {
    if lines == [] then []
    else
      var last := PointOf(lines[|lines| - 1], parseFloat);
      Points(lines[..|lines| - 1], parseFloat) + (if last.Some? then [last.value] else [])
  }

  function Times(ps: seq<(Num, Num)>): (ts: seq<Num>)
    ensures |ts| == |ps| && forall i :: 0 <= i < |ps| ==> ts[i] == ps[i].0
  {
    seq(|ps|, i requires 0 <= i < |ps| => ps[i].0)
  }

  function Values(ps: seq<(Num, Num)>): (vs: seq<Num>)
    ensures |vs| == |ps| && forall i :: 0 <= i < |ps| ==> vs[i] == ps[i].1
  {
    seq(|ps|, i requires 0 <= i < |ps| => ps[i].1)
  }

  /** Parsing a file is parsing its parts one after the other: the order of
      accepted lines is kept. */
  lemma {:induction false} PointsAppend(a: seq<string>, b: seq<string>, parseFloat: string -> Num)
    ensures Points(a + b, parseFloat) == Points(a, parseFloat) + Points(b, parseFloat)
  {
    if b == [] {
      assert a + b == a;
    } else {
      assert (a + b)[..|a + b| - 1] == a + b[..|b| - 1];
      PointsAppend(a, b[..|b| - 1], parseFloat);
    }
  }

  /** A line without two fields, or whose first two fields do not both parse,
      contributes nothing wherever it stands. */
  lemma RejectedLineSkipped(a: seq<string>, line: string, b: seq<string>, parseFloat: string -> Num)
    requires PointOf(line, parseFloat).None?
    ensures Points(a + [line] + b, parseFloat) == Points(a + b, parseFloat)
  {
    PointsAppend(a + [line], b, parseFloat);
    PointsAppend(a, [line], parseFloat);
    PointsAppend(a, b, parseFloat);
    PointsSingle(line, parseFloat);
  }

  lemma PointsSingle(line: string, parseFloat: string -> Num)
    ensures Points([line], parseFloat) ==
      if PointOf(line, parseFloat).Some? then [PointOf(line, parseFloat).value] else []
  {
    assert [line][..0] == [];
  }

  /** A line holding a single field is skipped. */
  lemma SingleFieldSkipped(w: string, parseFloat: string -> Num)
    requires NoSpace(w) && w != []
    ensures PointOf(w, parseFloat).None?
  {
    WordSplitsToItself(w);
    assert Trim(w) == w;
  }

  /** Fields after the second are ignored: appending one more field to a
      line (with no white space at its ends) does not change its point. */
  lemma ExtraFieldIgnored(line: string, w: string, parseFloat: string -> Num)
    requires line != [] && !IsSpace(line[0]) && !IsSpace(line[|line| - 1])
    requires NoSpace(w) && w != []
    requires |Fields(line)| >= 2
    ensures PointOf(line + (" " + w), parseFloat) == PointOf(line, parseFloat)
  {
    var t := line + (" " + w);
    FieldsAppendWord(line, w);
    var parts := Fields(line);
    var more := Fields(t);
    assert |more| >= 2 && more[0] == parts[0] && more[1] == parts[1];
    PointOfFirstTwo(line, t, parseFloat);
  }

  /** Two lines whose first two fields agree contribute the same point. */
  lemma PointOfFirstTwo(a: string, b: string, parseFloat: string -> Num)
    requires |Fields(a)| >= 2 && |Fields(b)| >= 2
    requires Fields(a)[0] == Fields(b)[0] && Fields(a)[1] == Fields(b)[1]
    ensures PointOf(a, parseFloat) == PointOf(b, parseFloat)
  {
  }

  lemma FieldsAppendWord(line: string, w: string)
    requires line != [] && !IsSpace(line[0]) && !IsSpace(line[|line| - 1])
    requires NoSpace(w) && w != []
    ensures Fields(line + (" " + w)) == Fields(line) + [w]
  {
    var t := line + (" " + w);
    TrimKeepsTrimmed(line);
    assert t[0] == line[0] && t[|t| - 1] == w[|w| - 1];
    TrimKeepsTrimmed(t);
    SplitSpacesAppendWord(line, w);
  }

  // ---------------------------------------------------------------------------
  // The record.

  /** A `SensorData` instance; `length` is `times.length` at construction. */
  datatype SensorData = SensorData(fileName: string, times: seq<Num>, values: seq<Num>, length: nat, anomalyTime: Json)

  datatype SensorError = LengthMismatch(timesLength: nat, valuesLength: nat)

  /** The constructor, `anomalyTime` defaulting to `null`: it throws exactly
      when the two arrays differ in length. */
  function NewSensorData(fileName: string, times: seq<Num>, values: seq<Num>, anomalyTime: Json): (r: Result<SensorData, SensorError>)
    ensures r.Failure? <==> |times| != |values|
    ensures r.Failure? ==> r.error == LengthMismatch(|times|, |values|)
    ensures r.Success? ==>
      && r.value.fileName == fileName && r.value.times == times && r.value.values == values
      && r.value.length == |times| == |values|
      && r.value.anomalyTime == (if anomalyTime == Undefined then Null else anomalyTime)
  {
    var anomaly := if anomalyTime == Undefined then Null else anomalyTime;
    if |times| != |values| then Failure(LengthMismatch(|times|, |values|))
    else Success(SensorData(fileName, times, values, |times|, anomaly))
  }

  lemma UnzipAppend(ps: seq<(Num, Num)>, p: (Num, Num))
    ensures Times(ps + [p]) == Times(ps) + [p.0]
    ensures Values(ps + [p]) == Values(ps) + [p.1]
  {
  }

  lemma PointsStep(lines: seq<string>, i: nat, parseFloat: string -> Num)
    requires i < |lines|
    ensures Points(lines[..i + 1], parseFloat) == Points(lines[..i], parseFloat) +
      (if PointOf(lines[i], parseFloat).Some? then [PointOf(lines[i], parseFloat).value] else [])
  {
    assert lines[..i + 1] == lines[..i] + [lines[i]];
    PointsAppend(lines[..i], [lines[i]], parseFloat);
    PointsSingle(lines[i], parseFloat);
  }

  /** The loop of `fromTextFile`: for each line, push its time and value
      when the line is accepted. */
  method CollectPoints(lines: seq<string>, parseFloat: string -> Num) returns (times: seq<Num>, values: seq<Num>)
    ensures times == Times(Points(lines, parseFloat))
    ensures values == Values(Points(lines, parseFloat))
  {
    times, values := [], [];
    ghost var points: seq<(Num, Num)> := [];
    var i := 0;
    while i < |lines|
      invariant 0 <= i <= |lines|
      invariant points == Points(lines[..i], parseFloat)
      invariant times == Times(points) && values == Values(points)
    {
      PointsStep(lines, i, parseFloat);
      var point := PointOf(lines[i], parseFloat);
      if point.Some? {
        UnzipAppend(points, point.value);
        times := times + [point.value.0];
        values := values + [point.value.1];
        points := points + [point.value];
      }
      i := i + 1;
    }
    assert lines[..i] == lines;
  }

  /** The record `fromTextFile` builds, as a function. */
  function ParseText(fileName: string, content: string, anomalyTime: Json, parseFloat: string -> Num): SensorData {
    var ps := Points(Lines(content), parseFloat);
    SensorData(fileName, Times(ps), Values(ps), |ps|, if anomalyTime == Undefined then Null else anomalyTime)
  }

  /** `SensorData.fromTextFile`: collect the accepted points of the trimmed
      content's lines, then construct, which never throws here. */
  method FromTextFile(fileName: string, content: string, anomalyTime: Json, parseFloat: string -> Num)
    returns (r: Result<SensorData, SensorError>)
    ensures r.Success?
    ensures r.value.fileName == fileName
    ensures r.value.times == Times(Points(Lines(content), parseFloat))
    ensures r.value.values == Values(Points(Lines(content), parseFloat))
    ensures r.value.length == |r.value.times| == |r.value.values|
    ensures r.value.anomalyTime == (if anomalyTime == Undefined then Null else anomalyTime)
    ensures r.value == ParseText(fileName, content, anomalyTime, parseFloat)
  {
    var times, values := CollectPoints(Lines(content), parseFloat);
    r := NewSensorData(fileName, times, values, anomalyTime);
  }

  // ---------------------------------------------------------------------------
  // The JSON form.

  function NumbersToJson(xs: seq<Num>): (j: seq<Json>)
    ensures |j| == |xs| && forall i :: 0 <= i < |xs| ==> j[i] == Number(xs[i])
  {
    seq(|xs|, i requires 0 <= i < |xs| => Number(xs[i]))
  }

  /** `toJSON()`: exactly the five stored fields. */
  function ToJson(d: SensorData): (j: Json)
    ensures j.Obj? && j.fields.Keys == {"fileName", "times", "values", "length", "anomalyTime"}
  {
    Obj(map[
      "fileName" := Str(d.fileName),
      "times" := Arr(NumbersToJson(d.times)),
      "values" := Arr(NumbersToJson(d.values)),
      "length" := NumberOf(d.length as real),
      "anomalyTime" := d.anomalyTime])
  }

  function NumbersFromJson(js: seq<Json>): (r: Option<seq<Num>>)
    ensures r.Some? ==> |r.value| == |js|
  {
    if js == [] then Some([])
    else if !js[|js| - 1].Number? then None
    else
      match NumbersFromJson(js[..|js| - 1])
      case None => None
      case Some(ns) => Some(ns + [js[|js| - 1].n])
  }

  /** Reads a `toJSON()` object back into a record. */
  function FromJson(j: Json): Option<SensorData> {
    if !j.Obj? then None
    else
      var f, t, v, n := Get(j, "fileName"), Get(j, "times"), Get(j, "values"), Get(j, "length");
      if !f.Str? || !t.Arr? || !v.Arr? || !n.Number? || !n.n.Finite? then None
      else if n.n.value < 0.0 || n.n.value != n.n.value.Floor as real then None
      else
        match (NumbersFromJson(t.items), NumbersFromJson(v.items))
        case (Some(ts), Some(vs)) => Some(SensorData(f.s, ts, vs, n.n.value.Floor, Get(j, "anomalyTime")))
        case _ => None
  }

  lemma {:induction false} NumbersRoundTrip(xs: seq<Num>)
    ensures NumbersFromJson(NumbersToJson(xs)) == Some(xs)
  {
    if xs != [] {
      var init := xs[..|xs| - 1];
      var js := NumbersToJson(xs);
      assert js[..|js| - 1] == NumbersToJson(init);
      assert js[|js| - 1] == Number(xs[|xs| - 1]);
      NumbersRoundTrip(init);
      assert init + [xs[|xs| - 1]] == xs;
    }
  }

  /** `toJSON()` loses nothing: every stored field can be read back. */
  lemma JsonRoundTrip(d: SensorData)
    ensures FromJson(ToJson(d)) == Some(d)
  {
    NumbersRoundTrip(d.times);
    NumbersRoundTrip(d.values);
    assert (d.length as real).Floor == d.length;
  }
}

=== FILE: validation.dfy ===
/** The request validators (src/middleware/validation.middleware.js). A
    validator either hands the request on to the next handler or answers it
    itself; a TypeError it does not catch is answered by the framework's
    error handler. */
module Validation {
  import opened JsValue

  const BadRequest: nat := 400

  /** The number of sensor readings every data point must hold. */
  const SensorsPerPoint: nat := 7

  /** Why a validator answers a request itself. */
  datatype Rejection =
    | MissingData         // `data` is falsy or not an array
    | NoDataPoints        // `data` is an empty array
    | ValidationFault     // reading `length` of a nullish first point threw; caught
    | NotSevenValues      // the first point's `length` is not 7
    | InconsistentPoints  // some point is not an array of the first point's length
    | NonNumeric          // some reading is not a number, or is NaN
    | InvalidModelName    // `modelName` is not a non-empty string
    | EnabledNotBoolean   // `enabled` is not a boolean

  /** `next()`, an answer with a status code, or an uncaught TypeError. */
  datatype Outcome = Next | Rejected(status: nat, reason: Rejection) | Thrown

  // ---------------------------------------------------------------------------
  // validateExperimentalData

  /** A data point as the models expect it: an array of exactly seven readings,
      each a number other than NaN. */
  predicate ValidPoint(p: Json) {
    p.Arr? && |p.items| == SensorsPerPoint && forall j :: 0 <= j < |p.items| ==> IsNumeric(p.items[j])
  }

  /** The bodies the validator lets through: `data` is a non-empty array of
      valid points. */
  predicate WellFormedDataset(body: Json) {
    && Truthy(body)
    && Get(body, "data").Arr?
    && |Get(body, "data").items| > 0
    && forall i :: 0 <= i < |Get(body, "data").items| ==> ValidPoint(Get(body, "data").items[i])
  }

  /** `points.filter(p => !Array.isArray(p) || p.length !== len).length > 0` */
  function AnyInconsistent(points: seq<Json>, len: Json): (b: bool)
    ensures b <==> exists i :: 0 <= i < |points| && (!points[i].Arr? || Get(points[i], "length") != len)
  {
    if points == [] then false
    else
      var p := points[|points| - 1];
      var init := points[..|points| - 1];
      assert forall i :: 0 <= i < |init| ==> init[i] == points[i];
      AnyInconsistent(init, len) || !p.Arr? || Get(p, "length") != len
  }

  /** `point.some(v => typeof v !== 'number' || isNaN(v))` */
  function AnyNonNumeric(values: seq<Json>): (b: bool)
    ensures b <==> exists j :: 0 <= j < |values| && !IsNumeric(values[j])
  {
    if values == [] then false
    else
      var init := values[..|values| - 1];
      assert forall j :: 0 <= j < |init| ==> init[j] == values[j];
      AnyNonNumeric(init) || !IsNumeric(values[|values| - 1])
  }

  /** `data.some(point => point.some(...))` over points known to be arrays. */
  function AnyPointNonNumeric(points: seq<Json>): (b: bool)
    requires forall i :: 0 <= i < |points| ==> points[i].Arr?
    ensures b <==> exists i :: 0 <= i < |points| && AnyNonNumeric(points[i].items)
  {
    if points == [] then false
    else
      var init := points[..|points| - 1];
      assert forall i :: 0 <= i < |init| ==> init[i] == points[i];
      AnyPointNonNumeric(init) || AnyNonNumeric(points[|points| - 1].items)
  }

  /** `validateExperimentalData`: the checks in source order; the first that
      fails decides the answer, always 400. */
  function ValidateExperimentalData(body: Json): (r: Outcome)
    ensures r.Next? <==> WellFormedDataset(body)
    ensures !r.Thrown?
    ensures r.Rejected? ==> r.status == BadRequest
    ensures r == Rejected(BadRequest, MissingData) <==> !Truthy(body) || !Get(body, "data").Arr?
    ensures r == Rejected(BadRequest, NoDataPoints) <==> Truthy(body) && Get(body, "data") == Arr([])
    ensures r.Rejected? && r.reason !in {MissingData, NoDataPoints} ==>
      Truthy(body) && Get(body, "data").Arr? && |Get(body, "data").items| > 0
    ensures r == Rejected(BadRequest, ValidationFault) <==>
      && Truthy(body) && Get(body, "data").Arr? && |Get(body, "data").items| > 0
      && Nullish(Get(body, "data").items[0])
    ensures r == Rejected(BadRequest, NotSevenValues) <==>
      && Truthy(body) && Get(body, "data").Arr? && |Get(body, "data").items| > 0
      && var first := Get(body, "data").items[0];
         !Nullish(first) && Get(first, "length") != NumberOf(7.0)
    ensures r == Rejected(BadRequest, InconsistentPoints) <==>
      && Truthy(body) && Get(body, "data").Arr? && |Get(body, "data").items| > 0
      && var points := Get(body, "data").items;
         && !Nullish(points[0]) && Get(points[0], "length") == NumberOf(7.0)
         && exists i :: 0 <= i < |points| && (!points[i].Arr? || |points[i].items| != SensorsPerPoint)
    ensures r.Rejected? ==> r.reason !in {InvalidModelName, EnabledNotBoolean}
    ensures r.Rejected? && r.reason in {InconsistentPoints, NonNumeric} ==>
      Get(Get(body, "data").items[0], "length") == NumberOf(7.0)
    ensures r == Rejected(BadRequest, NonNumeric) ==>
      && (forall i :: 0 <= i < |Get(body, "data").items| ==>
            var p := Get(body, "data").items[i]; p.Arr? && |p.items| == SensorsPerPoint)
      && exists i :: 0 <= i < |Get(body, "data").items| && !ValidPoint(Get(body, "data").items[i])
  {
    if !Truthy(body) || !Get(body, "data").Arr? then Rejected(BadRequest, MissingData)
    else
      var points := Get(body, "data").items;
      if |points| == 0 then Rejected(BadRequest, NoDataPoints)
      else if Nullish(points[0]) then Rejected(BadRequest, ValidationFault)
      else
        var firstLength := Get(points[0], "length");
        if !Truthy(firstLength) || firstLength != NumberOf(SensorsPerPoint as real) then
          Rejected(BadRequest, NotSevenValues)
        else if AnyInconsistent(points, firstLength) then Rejected(BadRequest, InconsistentPoints)
        else if AnyPointNonNumeric(points) then Rejected(BadRequest, NonNumeric)
        else
          assert forall i :: 0 <= i < |points| ==> ValidPoint(points[i]) by {
            forall i | 0 <= i < |points|
              ensures ValidPoint(points[i])
            {
              assert !AnyNonNumeric(points[i].items);
            }
          }
          Next
  }

  /** The length check reads `length`, so a first point that is an object with
      `length: 7` gets past it; the next check, which demands arrays, stops it. */
  lemma LengthOnlyObjectRejected(rest: seq<Json>)
    ensures ValidateExperimentalData(Obj(map["data" := Arr([Obj(map["length" := NumberOf(7.0)])] + rest)]))
      == Rejected(BadRequest, InconsistentPoints)
  {
    var points := [Obj(map["length" := NumberOf(7.0)])] + rest;
    assert Get(Obj(map["data" := Arr(points)]), "data") == Arr(points);
    assert points[0] == Obj(map["length" := NumberOf(7.0)]);
    assert AnyInconsistent(points, NumberOf(7.0));
  }

  // ---------------------------------------------------------------------------
  // validateModelConfig

  /** `!v || typeof v !== 'string'` fails exactly for what is not a non-empty string. */
  predicate NonEmptyString(v: Json) {
    v.Str? && v.s != ""
  }

  /** `validateModelConfig`: destructuring a nullish body throws (nothing
      catches it); otherwise `modelName` must be a non-empty string and
      `enabled` a boolean, checked in that order. */
  function ValidateModelConfig(body: Json): (r: Outcome)
    ensures r.Thrown? <==> Nullish(body)
    ensures r.Next? <==> !Nullish(body) && NonEmptyString(Get(body, "modelName")) && Get(body, "enabled").Bool?
    ensures r.Rejected? ==> r.status == BadRequest
    ensures r.Rejected? && r.reason == EnabledNotBoolean ==> NonEmptyString(Get(body, "modelName"))
    ensures !Nullish(body) && !NonEmptyString(Get(body, "modelName")) ==> r == Rejected(BadRequest, InvalidModelName)
    ensures !Nullish(body) && NonEmptyString(Get(body, "modelName")) && !Get(body, "enabled").Bool? ==>
      r == Rejected(BadRequest, EnabledNotBoolean)
    ensures r.Rejected? ==> r.reason in {InvalidModelName, EnabledNotBoolean}
  {
    if Nullish(body) then Thrown
    else if !NonEmptyString(Get(body, "modelName")) then Rejected(BadRequest, InvalidModelName)
    else if !Get(body, "enabled").Bool? then Rejected(BadRequest, EnabledNotBoolean)
    else Next
  }
}

=== FILE: voting.dfy ===
/** The voting engine (`applyVoting` in src/services/orchestrator.service.js):
    reduces the per-model responses of one orchestration to a binary decision. */
module Voting {
  import opened Wrappers
  import opened JsValue
  import opened Dispatch

  /** The two classes a model can predict. */
  type Label = c: int | 0 <= c <= 1

  /** A response takes part in the vote iff it has status 'success', a truthy
      `result`, and a `result.prediction` that is not `undefined`. */
  predicate Counted(r: ModelResponse)
    ensures Counted(r) ==> r.Status() == Some(StatusSuccess)
    ensures r.Status() == Some(StatusSuccess) ==>
      (Counted(r) <==> Truthy(r.result) && Get(r.result, "prediction") != Undefined)
  {
    r.Answered? && Truthy(r.result) && Get(r.result, "prediction") != Undefined
  }

  /** The `votes` slot a prediction lands in. `votes[prediction]` reads the
      property named by the prediction's string form: the number 1, the string
      "1" and a one-element array holding either (an array's string form joins
      those of its elements with commas, so `[1]` and `[["1"]]` read "1") land
      in slot 1, and likewise for 0. Every other value names no slot. */
  function ClassOf(p: Json): (c: Option<Label>)
    ensures p == NumberOf(0.0) || p == Str("0") ==> c == Some(0)
    ensures p == NumberOf(1.0) || p == Str("1") ==> c == Some(1)
    ensures p.Number? && p.n != Finite(0.0) && p.n != Finite(1.0) ==> c.None?
    ensures p.Str? && p.s != "0" && p.s != "1" ==> c.None?
    ensures p.Arr? && |p.items| != 1 ==> c.None?
    ensures Nullish(p) || p.Bool? || p.Obj? ==> c.None?
  {
    match p
    case Number(n) => if n == Finite(0.0) then Some(0) else if n == Finite(1.0) then Some(1) else None
    case Str(s) => if s == "0" then Some(0) else if s == "1" then Some(1) else None
    case Arr(items) => if |items| == 1 then ClassOf(items[0]) else None
    case _ => None
  }

  /** A one-element array's string form is that of its element, so it lands in
      the same slot: `[1]`, `["1"]` and `[[1]]` all vote for class 1. */
  lemma ClassOfSingleton(x: Json)
    ensures ClassOf(Arr([x])) == ClassOf(x)
  {
    assert Arr([x]).items[0] == x;
  }

  /** A response the tally can take: if it is counted, its prediction names
      class 0 or 1 and its confidence is either falsy or a finite number.
      Any other prediction leaves `confidences[prediction]` undefined, so its
      `push` throws a TypeError. */
  predicate Tallyable(r: ModelResponse)
    ensures !Counted(r) ==> Tallyable(r)
    ensures Counted(r) && ClassOf(Get(r.result, "prediction")).None? ==> !Tallyable(r)
    ensures Counted(r) && !Truthy(Get(r.result, "confidence")) ==> (Tallyable(r) <==> ClassOf(Get(r.result, "prediction")).Some?)
  {
    Counted(r) ==>
      && ClassOf(Get(r.result, "prediction")).Some?
      && (Truthy(Get(r.result, "confidence")) ==>
            Get(r.result, "confidence").Number? && Get(r.result, "confidence").n.Finite?)
  }

  predicate AllTallyable(rs: seq<ModelResponse>) {
    forall r :: r in rs ==> Tallyable(r)
  }

  /** The class a counted response votes for, if it names one. */
  function LabelOf(r: ModelResponse): Option<Label>
    requires Counted(r)
  {
    ClassOf(Get(r.result, "prediction"))
  }

  /** `response.result.confidence || 1.0`: a missing, null or zero confidence
      counts as 1. (A truthy confidence that is not a finite number is outside
      `Tallyable`, and the value given for it here is never consulted.) */
  function Weight(r: ModelResponse): (w: real)
    requires Counted(r)
    ensures !Truthy(Get(r.result, "confidence")) ==> w == 1.0
    ensures var c := Get(r.result, "confidence"); Truthy(c) && c.Number? && c.n.Finite? ==> w == c.n.value
  {
    var c := Get(r.result, "confidence");
    if !Truthy(c) then 1.0
    else if c.Number? && c.n.Finite? then c.n.value
    else 1.0
  }

  /** A counted, tallyable response votes for exactly one of the two classes. */
  lemma OneClass(r: ModelResponse)
    requires Counted(r) && Tallyable(r)
    ensures LabelOf(r) == Some(0) || LabelOf(r) == Some(1)
  {
    var l := LabelOf(r);
    assert l.Some?;
  }

  /** A counted response voting for `c`. */
  predicate VotesFor(r: ModelResponse, c: Label) {
    Counted(r) && LabelOf(r) == Some(c)
  }

  /** The responses that take part in the vote, in their original order. */
  function Successful(rs: seq<ModelResponse>): (s: seq<ModelResponse>)
    ensures |s| <= |rs|
    ensures forall r :: r in s ==> r in rs && Counted(r)
    ensures forall r :: r in rs && Counted(r) ==> r in s
  {
    if rs == [] then []
    else Successful(rs[..|rs| - 1]) + KeepCounted(rs[|rs| - 1])
  }

  /** The response alone when it is counted, nothing otherwise. */
  function KeepCounted(r: ModelResponse): seq<ModelResponse> {
    if Counted(r) then [r] else []
  }

  /** `confidences[c]`: the weights of the responses voting for `c`, in order. */
  function Confidences(rs: seq<ModelResponse>, c: Label): seq<real> {
    if rs == [] then []
    else
      var last := rs[|rs| - 1];
      Confidences(rs[..|rs| - 1], c) + WeightFor(last, c)
  }

  /** The response's weight when it votes for `c`, nothing otherwise. */
  function WeightFor(r: ModelResponse, c: Label): seq<real> {
    if VotesFor(r, c) then [Weight(r)] else []
  }

  /** Left-to-right sum, as `reduce((sum, conf) => sum + conf, 0)`. */
  function Sum(xs: seq<real>): real {
    if xs == [] then 0.0 else Sum(xs[..|xs| - 1]) + xs[|xs| - 1]
  }

  function Mean(xs: seq<real>): real
    requires |xs| > 0
  {
    Sum(xs) / (|xs| as real)
  }

  datatype Message = NoValidPredictions | TieInVoting | ClassWon(winner: Label, votes: nat)

  /** The object `applyVoting` returns. With no counted response it carries
      only `decision: null`, `confidence: 0` and a message. */
  datatype VotingResult =
    | NoVotes
    | Tally(votes0: nat, votes1: nat, totalVotes: nat, totalModels: nat,
            decision: Option<Label>, confidence: real, message: Message)
  {
    function Decision(): Option<Label> {
      if NoVotes? then None else decision
    }

    function Confidence(): real {
      if NoVotes? then 0.0 else confidence
    }

    /** The `votes` object, absent when nothing was counted. */
    function Votes(): Option<(nat, nat)> {
      if NoVotes? then None else Some((votes0, votes1))
    }

    function Msg(): Message {
      if NoVotes? then NoValidPredictions else message
    }
  }

  /** The voting reduction: nothing counted gives no tally; otherwise each
      class's votes are its counted responses, the class with strictly more
      votes wins with the mean of its weights, and a draw decides nothing. */
  function Vote(rs: seq<ModelResponse>): (v: VotingResult)
    requires AllTallyable(rs)
    ensures v.NoVotes? <==> Successful(rs) == []
    ensures v.Tally? ==>
      && v.votes0 == |Confidences(rs, 0)| && v.votes1 == |Confidences(rs, 1)|
      && v.totalVotes == |Successful(rs)| && v.totalModels == |rs|
    ensures v.Tally? ==> (v.decision == Some(0) <==> v.votes0 > v.votes1)
    ensures v.Tally? ==> (v.decision == Some(1) <==> v.votes1 > v.votes0)
    ensures v.Tally? && v.decision.Some? ==>
      && v.confidence == Mean(Confidences(rs, v.decision.value))
      && v.message == ClassWon(v.decision.value, |Confidences(rs, v.decision.value)|)
    ensures v.Tally? && v.decision.None? ==> v.confidence == 0.0 && v.message == TieInVoting
  {
    var n := |Successful(rs)|;
    if n == 0 then NoVotes
    else
      var c0 := Confidences(rs, 0);
      var c1 := Confidences(rs, 1);
      if |c0| > |c1| then Tally(|c0|, |c1|, n, |rs|, Some(0), Mean(c0), ClassWon(0, |c0|))
      else if |c1| > |c0| then Tally(|c0|, |c1|, n, |rs|, Some(1), Mean(c1), ClassWon(1, |c1|))
      else Tally(|c0|, |c1|, n, |rs|, None, 0.0, TieInVoting)
  }

  // ---------------------------------------------------------------------------
  // The imperative reduction, step by step as the service performs it.

  /** The `modelResponses.filter(...)` step. */
  method FilterCounted(rs: seq<ModelResponse>) returns (successful: seq<ModelResponse>)
    ensures successful == Successful(rs)
  {
    successful := [];
    var i := 0;
    while i < |rs|
      invariant 0 <= i <= |rs|
      invariant successful == Successful(rs[..i])
    {
      assert rs[..i + 1][..i] == rs[..i];
      if Counted(rs[i]) {
        successful := successful + [rs[i]];
      }
      i := i + 1;
    }
    assert rs[..i] == rs;
  }

  /** The `successfulResponses.forEach(...)` step: one vote and one
      confidence per counted response, in the slot of its class. */
  method TallyVotes(successful: seq<ModelResponse>) returns (votes0: nat, votes1: nat, conf0: seq<real>, conf1: seq<real>)
    requires AllTallyable(successful)
    requires forall r :: r in successful ==> Counted(r)
    ensures conf0 == Confidences(successful, 0) && conf1 == Confidences(successful, 1)
    ensures votes0 == |conf0| && votes1 == |conf1|
  {
    votes0, votes1 := 0, 0;
    conf0, conf1 := [], [];
    var j := 0;
    while j < |successful|
      invariant 0 <= j <= |successful|
      invariant conf0 == Confidences(successful[..j], 0)
      invariant conf1 == Confidences(successful[..j], 1)
      invariant votes0 == |conf0| && votes1 == |conf1|
    {
      var response := successful[j];
      assert response in successful;
      assert successful[..j + 1][..j] == successful[..j];
      OneClass(response);
      if LabelOf(response) == Some(0) {
        votes0 := votes0 + 1;
        conf0 := conf0 + [Weight(response)];
      } else {
        votes1 := votes1 + 1;
        conf1 := conf1 + [Weight(response)];
      }
      j := j + 1;
    }
    assert successful[..j] == successful;
  }

  /** `applyVoting`: filter the counted responses, tally votes and confidence
      lists, pick the class with strictly more votes and average its
      confidences; a draw gives no decision. */
  method ApplyVoting(rs: seq<ModelResponse>) returns (v: VotingResult)
    requires AllTallyable(rs)
    ensures v == Vote(rs)
  {
    var successful := FilterCounted(rs);
    if |successful| == 0 {
      return NoVotes;
    }
    ConfidencesOfSuccessful(rs, 0);
    ConfidencesOfSuccessful(rs, 1);
    var votes0, votes1, conf0, conf1 := TallyVotes(successful);
    if votes0 > votes1 {
      v := Tally(votes0, votes1, |successful|, |rs|, Some(0), Sum(conf0) / (|conf0| as real), ClassWon(0, votes0));
    } else if votes1 > votes0 {
      v := Tally(votes0, votes1, |successful|, |rs|, Some(1), Sum(conf1) / (|conf1| as real), ClassWon(1, votes1));
    } else {
      v := Tally(votes0, votes1, |successful|, |rs|, None, 0.0, TieInVoting);
    }
  }

  // ---------------------------------------------------------------------------
  // Structural lemmas.

  lemma {:induction false} SuccessfulAppend(a: seq<ModelResponse>, b: seq<ModelResponse>)
    ensures Successful(a + b) == Successful(a) + Successful(b)
  {
    if b == [] {
      assert a + b == a;
    } else {
      assert (a + b)[..|a + b| - 1] == a + b[..|b| - 1];
      assert (a + b)[|a + b| - 1] == b[|b| - 1];
      SuccessfulAppend(a, b[..|b| - 1]);
    }
  }

  lemma {:induction false} ConfidencesAppend(a: seq<ModelResponse>, b: seq<ModelResponse>, c: Label)
    ensures Confidences(a + b, c) == Confidences(a, c) + Confidences(b, c)
  {
    if b == [] {
      assert a + b == a;
    } else {
      assert (a + b)[..|a + b| - 1] == a + b[..|b| - 1];
      ConfidencesAppend(a, b[..|b| - 1], c);
    }
  }

  /** Filtering first does not change the per-class confidence lists. */
  lemma {:induction false} ConfidencesOfSuccessful(rs: seq<ModelResponse>, c: Label)
    ensures Confidences(Successful(rs), c) == Confidences(rs, c)
  {
    if rs != [] {
      var init := rs[..|rs| - 1];
      var last := rs[|rs| - 1];
      ConfidencesOfSuccessful(init, c);
      var tail := if Counted(last) then [last] else [];
      ConfidencesAppend(Successful(init), tail, c);
      if Counted(last) {
        assert tail[..0] == [];
      }
    }
  }

  /** Every counted response lands in exactly one class. */
  lemma {:induction false} CountsAddUp(rs: seq<ModelResponse>)
    requires AllTallyable(rs)
    ensures |Confidences(rs, 0)| + |Confidences(rs, 1)| == |Successful(rs)|
  {
    if rs != [] {
      var last := rs[|rs| - 1];
      assert last in rs;
      if Counted(last) {
        OneClass(last);
      }
      CountsAddUp(rs[..|rs| - 1]);
    }
  }

  lemma {:induction false} SumAppend(a: seq<real>, b: seq<real>)
    ensures Sum(a + b) == Sum(a) + Sum(b)
  {
    if b == [] {
      assert a + b == a;
    } else {
      assert (a + b)[..|a + b| - 1] == a + b[..|b| - 1];
      SumAppend(a, b[..|b| - 1]);
    }
  }

  // ---------------------------------------------------------------------------
  // Properties of the vote.

  /** `votes[0] + votes[1] == totalVotes`, the number of counted responses,
      which is at most `totalModels == |responses|`; the result lacks the tally
      exactly when nothing was counted. */
  lemma VoteTotals(rs: seq<ModelResponse>)
    requires AllTallyable(rs)
    ensures Vote(rs).NoVotes? <==> |Successful(rs)| == 0
    ensures Vote(rs).Tally? ==>
      && Vote(rs).votes0 + Vote(rs).votes1 == Vote(rs).totalVotes
      && Vote(rs).totalVotes == |Successful(rs)|
      && Vote(rs).totalVotes <= Vote(rs).totalModels
      && Vote(rs).totalModels == |rs|
  {
    CountsAddUp(rs);
  }

  /** No decision (null, confidence 0) exactly when nothing was counted or
      the two classes drew. */
  lemma NoDecisionIffTie(rs: seq<ModelResponse>)
    requires AllTallyable(rs)
    ensures Vote(rs).Decision().None? <==>
      |Successful(rs)| == 0 || |Confidences(rs, 0)| == |Confidences(rs, 1)|
    ensures Vote(rs).Decision().None? ==> Vote(rs).Confidence() == 0.0
  {
    CountsAddUp(rs);
  }

  /** A strict majority decides, with the mean confidence of its voters. */
  lemma MajorityDecides(rs: seq<ModelResponse>, c: Label)
    requires AllTallyable(rs)
    requires |Confidences(rs, c)| > |Confidences(rs, 1 - c)|
    ensures Vote(rs).Decision() == Some(c)
    ensures Vote(rs).Confidence() == Sum(Confidences(rs, c)) / (|Confidences(rs, c)| as real)
    ensures Vote(rs).Msg() == ClassWon(c, |Confidences(rs, c)|)
  {
    CountsAddUp(rs);
  }

  /** A response without a status (an unavailable model) or with status
      'error' never changes the vote, except for `totalModels`. */
  lemma UncountedIgnored(rs: seq<ModelResponse>, r: ModelResponse)
    requires AllTallyable(rs) && !Counted(r)
    ensures AllTallyable(rs + [r])
    ensures Vote(rs + [r]).Decision() == Vote(rs).Decision()
    ensures Vote(rs + [r]).Confidence() == Vote(rs).Confidence()
    ensures Vote(rs + [r]).Votes() == Vote(rs).Votes()
  {
    assert (rs + [r])[..|rs + [r]| - 1] == rs;
    assert Successful(rs + [r]) == Successful(rs);
    assert Confidences(rs + [r], 0) == Confidences(rs, 0);
    assert Confidences(rs + [r], 1) == Confidences(rs, 1);
  }

  predicate UnitConfidences(xs: seq<real>) {
    forall x :: x in xs ==> 0.0 < x <= 1.0
  }

  lemma {:induction false} SumBounds(xs: seq<real>)
    requires UnitConfidences(xs)
    ensures 0.0 <= Sum(xs) <= |xs| as real
    ensures |xs| > 0 ==> 0.0 < Sum(xs)
  {
    if xs != [] {
      var init := xs[..|xs| - 1];
      assert forall x :: x in init ==> x in xs;
      assert xs[|xs| - 1] in xs;
      SumBounds(init);
    }
  }

  /** Every supplied confidence of a counted response is absent, falsy or in [0,1]. */
  predicate ConfidencesInRange(rs: seq<ModelResponse>) {
    forall r :: r in rs && Counted(r) ==>
      var c := Get(r.result, "confidence");
      Truthy(c) ==> c.Number? && c.n.Finite? && 0.0 <= c.n.value <= 1.0
  }

  lemma {:induction false} WeightsInRange(rs: seq<ModelResponse>, c: Label)
    requires ConfidencesInRange(rs)
    ensures UnitConfidences(Confidences(rs, c))
  {
    if rs != [] {
      var init := rs[..|rs| - 1];
      assert forall r :: r in init ==> r in rs;
      WeightsInRange(init, c);
    }
  }

  /** With every supplied confidence in [0,1], the result's confidence is in
      [0,1]; a decided result's is even positive, since zero counts as 1. */
  lemma ConfidenceInUnitInterval(rs: seq<ModelResponse>)
    requires AllTallyable(rs) && ConfidencesInRange(rs)
    ensures 0.0 <= Vote(rs).Confidence() <= 1.0
    ensures Vote(rs).Decision().Some? ==> 0.0 < Vote(rs).Confidence()
  {
    var c0 := Confidences(rs, 0);
    var c1 := Confidences(rs, 1);
    WeightsInRange(rs, 0);
    WeightsInRange(rs, 1);
    SumBounds(c0);
    SumBounds(c1);
    if |Successful(rs)| > 0 && |c0| > |c1| {
      MeanBounds(c0);
    } else if |Successful(rs)| > 0 && |c1| > |c0| {
      MeanBounds(c1);
    }
  }

  lemma MeanBounds(xs: seq<real>)
    requires |xs| > 0 && 0.0 < Sum(xs) <= |xs| as real
    ensures 0.0 < Mean(xs) <= 1.0
  {
    var n := |xs| as real;
    assert Sum(xs) / n <= n / n;
  }

  // ---------------------------------------------------------------------------
  // Order independence.

  lemma MultisetCancel<T>(a: multiset<T>, b: multiset<T>, x: T)
    requires a + multiset{x} == b + multiset{x}
    ensures a == b
  {
    assert a == (a + multiset{x}) - multiset{x};
    assert b == (b + multiset{x}) - multiset{x};
  }

  /** The last element of `xs` sits at some index `i` of its permutation
      `ys`, and what remains on both sides is again a permutation. */
  lemma PermutationSplit<T>(xs: seq<T>, ys: seq<T>) returns (i: nat)
    requires multiset(xs) == multiset(ys) && |xs| > 0
    ensures i < |ys| && ys[i] == xs[|xs| - 1]
    ensures ys == ys[..i] + [ys[i]] + ys[i + 1..]
    ensures multiset(xs[..|xs| - 1]) == multiset(ys[..i] + ys[i + 1..])
  {
    var init, x := xs[..|xs| - 1], xs[|xs| - 1];
    assert xs == init + [x];
    assert x in multiset(ys);
    i :| 0 <= i < |ys| && ys[i] == x;
    var rest := ys[..i] + ys[i + 1..];
    assert ys == ys[..i] + [x] + ys[i + 1..];
    assert multiset(ys) == multiset(rest) + multiset{x};
    assert multiset(xs) == multiset(init) + multiset{x};
    MultisetCancel(multiset(init), multiset(rest), x);
  }

  lemma SplitLast<T>(xs: seq<T>)
    requires |xs| > 0
    ensures xs == xs[..|xs| - 1] + [xs[|xs| - 1]]
  {
  }

  lemma {:induction false} ConfidencesPermutation(rs: seq<ModelResponse>, ts: seq<ModelResponse>, c: Label)
    requires multiset(rs) == multiset(ts)
    ensures multiset(Confidences(rs, c)) == multiset(Confidences(ts, c))
    decreases |rs|
  {
    if rs == [] {
      assert |ts| == |multiset(ts)| == 0;
    } else {
      var init, x := rs[..|rs| - 1], rs[|rs| - 1];
      var i := PermutationSplit(rs, ts);
      var pre, post := ts[..i], ts[i + 1..];
      ConfidencesAppend(pre, post, c);
      ConfidencesPermutation(init, pre + post, c);
      ConfidencesAppend(pre, [x], c);
      ConfidencesAppend(pre + [x], post, c);
      SplitLast(rs);
      ConfidencesAppend(init, [x], c);
      var cp, cx, cq := Confidences(pre, c), Confidences([x], c), Confidences(post, c);
      calc {
        multiset(Confidences(ts, c));
        multiset(cp + cx + cq);
        multiset(cp) + multiset(cx) + multiset(cq);
        multiset(cp + cq) + multiset(cx);
        multiset(Confidences(init, c)) + multiset(cx);
        multiset(Confidences(init, c) + cx);
        multiset(Confidences(rs, c));
      }
    }
  }

  lemma {:induction false} SumPermutation(xs: seq<real>, ys: seq<real>)
    requires multiset(xs) == multiset(ys)
    ensures Sum(xs) == Sum(ys)
    decreases |xs|
  {
    if xs == [] {
      assert |ys| == |multiset(ys)| == 0;
    } else {
      var init, x := xs[..|xs| - 1], xs[|xs| - 1];
      var i := PermutationSplit(xs, ys);
      var pre, post := ys[..i], ys[i + 1..];
      SumPermutation(init, pre + post);
      SumAppend(pre, [x]);
      SumAppend(pre + [x], post);
      SumAppend(pre, post);
      assert Sum([x]) == x by {
        assert [x][..0] == [];
      }
      assert Sum(ys) == Sum(pre) + x + Sum(post);
      assert Sum(xs) == Sum(init) + x;
    }
  }

  /** Reordering the responses leaves the voting result unchanged. */
  lemma VotePermutationInvariant(rs: seq<ModelResponse>, ts: seq<ModelResponse>)
    requires AllTallyable(rs) && AllTallyable(ts)
    requires multiset(rs) == multiset(ts)
    ensures Vote(rs) == Vote(ts)
  {
    assert |rs| == |multiset(rs)| == |multiset(ts)| == |ts|;
    ConfidencesPermutation(rs, ts, 0);
    ConfidencesPermutation(rs, ts, 1);
    var a0, b0 := Confidences(rs, 0), Confidences(ts, 0);
    var a1, b1 := Confidences(rs, 1), Confidences(ts, 1);
    assert |a0| == |multiset(a0)| == |multiset(b0)| == |b0|;
    assert |a1| == |multiset(a1)| == |multiset(b1)| == |b1|;
    SumPermutation(a0, b0);
    SumPermutation(a1, b1);
    CountsAddUp(rs);
    CountsAddUp(ts);
  }

  // ---------------------------------------------------------------------------
  // Worked scenarios.

  function Prediction(name: string, cls: real, confidence: real): ModelResponse {
    Answered(name, Obj(map["prediction" := NumberOf(cls), "confidence" := NumberOf(confidence)]))
  }

  lemma PredictionFacts(name: string, cls: real, confidence: real)
    requires cls == 0.0 || cls == 1.0
    requires 0.0 < confidence
    ensures Counted(Prediction(name, cls, confidence)) && Tallyable(Prediction(name, cls, confidence))
    ensures LabelOf(Prediction(name, cls, confidence)) == Some(if cls == 0.0 then 0 else 1)
    ensures Weight(Prediction(name, cls, confidence)) == confidence
  {
  }

  lemma SingleResponse(r: ModelResponse, c: Label)
    ensures Confidences([r], c) == if VotesFor(r, c) then [Weight(r)] else []
    ensures Successful([r]) == if Counted(r) then [r] else []
  {
    assert [r][..0] == [];
  }

  /** One more response adds its own contribution at the end. */
  lemma AppendOne(rs: seq<ModelResponse>, r: ModelResponse, l: Label)
    ensures Confidences(rs + [r], l) == Confidences(rs, l) + WeightFor(r, l)
    ensures Successful(rs + [r]) == Successful(rs) + KeepCounted(r)
  {
    assert (rs + [r])[..|rs|] == rs;
    assert (rs + [r])[|rs|] == r;
  }

  /** Three responses contribute in order, each on its own. */
  lemma ThreeResponses(a: ModelResponse, b: ModelResponse, c: ModelResponse, l: Label)
    ensures Confidences([a, b, c], l) == WeightFor(a, l) + WeightFor(b, l) + WeightFor(c, l)
    ensures Successful([a, b, c]) == KeepCounted(a) + KeepCounted(b) + KeepCounted(c)
  {
    assert [] + [a] == [a] && [a] + [b] == [a, b] && [a, b] + [c] == [a, b, c];
    AppendOne([], a, l);
    assert [] + WeightFor(a, l) == WeightFor(a, l) && [] + KeepCounted(a) == KeepCounted(a);
    AppendOne([a], b, l);
    AppendOne([a, b], c, l);
  }

  /** Two votes for class 1 at 0.9 and one for class 0 at 0.5, in this order. */
  lemma {:induction false} TwoAgainstOneTally(a: ModelResponse, b: ModelResponse, c: ModelResponse)
    requires VotesFor(a, 1) && VotesFor(b, 1) && VotesFor(c, 0)
    requires Weight(a) == 0.9 && Weight(b) == 0.9 && Weight(c) == 0.5
    ensures Confidences([a, b, c], 1) == [0.9, 0.9]
    ensures Confidences([a, b, c], 0) == [0.5]
    ensures Successful([a, b, c]) == [a, b, c]
  {
    assert !VotesFor(a, 0) && !VotesFor(b, 0) && !VotesFor(c, 1);
    ThreeResponses(a, b, c, 0);
    ThreeResponses(a, b, c, 1);
  }

  /** Two models answer class 1 with 0.9 and one answers class 0 with 0.5:
      class 1 wins 2 to 1 with confidence 0.9. */
  lemma TwoAgainstOne(a: ModelResponse, b: ModelResponse, c: ModelResponse)
    requires a == Prediction("svm", 1.0, 0.9) && b == Prediction("lstm", 1.0, 0.9)
    requires c == Prediction("xgboost", 0.0, 0.5)
    ensures AllTallyable([a, b, c])
    ensures Vote([a, b, c]) == Tally(1, 2, 3, 3, Some(1), 0.9, ClassWon(1, 2))
  {
    PredictionFacts("svm", 1.0, 0.9);
    PredictionFacts("lstm", 1.0, 0.9);
    PredictionFacts("xgboost", 0.0, 0.5);
    TwoAgainstOneTally(a, b, c);
    assert Sum([0.9, 0.9]) == 1.8 by {
      assert [0.9, 0.9][..1] == [0.9];
      assert [0.9][..0] == [];
    }
  }

  /** One vote each way is a tie: no decision. */
  lemma OneAgainstOne(a: ModelResponse, b: ModelResponse)
    requires a == Prediction("svm", 1.0, 0.8) && b == Prediction("lstm", 0.0, 0.8)
    ensures AllTallyable([a, b])
    ensures Vote([a, b]).Decision() == None
    ensures Vote([a, b]).Confidence() == 0.0
  {
    PredictionFacts("svm", 1.0, 0.8);
    PredictionFacts("lstm", 0.0, 0.8);
    assert !VotesFor(a, 0) && !VotesFor(b, 1);
    assert [] + [a] == [a] && [a] + [b] == [a, b];
    AppendOne([], a, 0);
    AppendOne([a], b, 0);
    AppendOne([], a, 1);
    AppendOne([a], b, 1);
    assert [] + WeightFor(a, 0) == WeightFor(a, 0) && [] + WeightFor(a, 1) == WeightFor(a, 1);
    NoDecisionIffTie([a, b]);
  }
}

=== FILE: wrappers.dfy ===
/** Failure-compatible wrappers used across the model: `Option` for values
    that JavaScript represents as `null`/absent, and `Result` for operations
    that throw or report an error instead of returning a value. */
module Wrappers {

  datatype Option<+T> = None | Some(value: T) {
    function GetOr(default: T): T {
      match this
      case Some(v) => v
      case None => default
    }
  }

  datatype Result<+R, +E> = Success(value: R) | Failure(error: E) {
    predicate IsFailure() {
      Failure?
    }

    function PropagateFailure<U>(): Result<U, E>
      requires Failure?
    {
      Failure(error)
    }

    function Extract(): R
      requires Success?
    {
      value
    }
  }
}
